=== FILE: README.md ===
# A 2×2×2 puzzle cube, page navigation and two background effects, in Dafny

This project models the logic of a small static website's scripts:

- **The puzzle-cube mini-game** (`cube.js`). It covers:
  - the eight cubies, their current slots in {0,1}³ and their orientations;
  - the twelve face moves and the slot update each move makes;
  - the orientation update at the end of a turn;
  - the move guard and move counter;
  - the solved-state detector;
  - "solve" as a return to the start arrangement, reset and the timed shuffle;
  - the keyboard key map.
- **Keyboard navigation** between the five pages (`navigation.js`).
- **Two integer cores of the page effects** (`script.js`): the bounded binary-rain buffer and the grid-line layout.

Modules, in dependency order:

| module | file | contents |
|---|---|---|
| `Options` | options.dfy | `Option` |
| `Geometry` | geometry.dfy | slots, signed axis directions, orientations as exact signed permutation matrices, and Rodrigues' rotation formula as an independent reference |
| `Moves` | moves.dfy | the move table, layer membership, the slot update |
| `Cubies` | cubies.dfy | cubie creation, turning a layer, the permutation invariant |
| `Detector` | detector.dfy | the solved-state check |
| `CubeGame` | game.dfy | the game record, move start/finish, solve, reset, key map |
| `Shuffle` | shuffle.dfy | the shuffle as twenty timed move requests |
| `Navigation` | navigation.dfy | choosing the target page |
| `BinaryRain` | rain.dfy | the 100-digit FIFO |
| `Grid` | grid.dfy | the grid-line layout |

Modelling choices:

- **Orientation.** A cubie's orientation is kept as the images of the three basis vectors, so every orientation is exactly one of the 24 rotations of the cube. The detector therefore compares rotated face normals exactly. The source rotates floating-point quaternions and accepts a normal within distance 0.1 of a side's normal. For the 24 exact rotations the two agree: distinct unit axis vectors are at least √2 apart.
- **Turn timing.** A turn is split into two events, as in the source:
  - `StartMove`: the guard, the counter, the table lookup, and the turn entering flight. The source's `isAnimating` flag is the phase `Turning`.
  - `FinishRotation`: the slot and orientation updates are committed, the flag is cleared and the detector is re-run.

  `PerformMove` is the two events back to back.
- **The slot update is kept exactly as written.**
  - About the z axis it moves every slot the way the turn's quaternion moves the cubie (`Moves.SlotTurnAgreesAboutZ`).
  - About x and y it moves each slot the opposite way (`Moves.SlotTurnOpposesAboutXAndY`). The recorded slots then no longer follow the cubies' orientations; each cubie's slot records where the cubie would be had it turned the other way.

  Layer selection and the detector read these slots, and "solve" overwrites them with the home slots. The model reproduces that behaviour; it does not correct it.
- **Shuffle timing.** The random choices, and how late the first animation frame after a turn's 400 ms comes (`lags`, one per request, so each turn is late by its own amount), are inputs. Request k is made at k·150 ms.

## Model

| member | source | states |
|---|---|---|
| Geometry.AllSlotsComplete | cube.js:199-205 | the eight start slots, created in x, y, z loop order, cover every slot of {0,1}³ |
| Geometry.Compose | cube.js:363 | composing two orientations rotates every direction first by the inner one, then by the outer one, which is how a turn's quaternion is pre-multiplied onto a cubie's |
| Geometry.QuarterTurn | cube.js:355-358 | a quarter turn about an axis is one of the 24 rotations and fixes that axis |
| Geometry.RotationsAreTheTwentyFour | cube.js:360-363 | an orientation is a rotation exactly when it is in the listed 24, which are pairwise distinct |
| Geometry.ApplyKeepsCross | cube.js:360-363 | a rotation maps the cross product of two perpendicular directions to the cross product of their images, and keeps them perpendicular |
| Geometry.ComposeIsRotation | cube.js:363 | pre-multiplying a rotation by a rotation gives a rotation |
| Geometry.QuarterTurnInverse | cube.js:355-358 | a quarter turn followed by the opposite quarter turn about the same axis restores any orientation |
| Geometry.QuarterTurnFour | cube.js:355-358 | four equal quarter turns restore any orientation |
| Geometry.QuarterTurnUndo | cube.js:355-358 | a quarter turn is undone by the opposite one, and moves every direction off its axis |
| Geometry.AxisAngleByAxis | cube.js:355-358 | Rodrigues' formula for a ±90° turn about a coordinate axis equals the closed-form turn: the other two coordinates swapped with one sign flipped, by the right-hand rule |
| Geometry.QuarterTurnIsTurn90 | cube.js:355-358 | the exact quarter-turn orientation moves every unit direction as the closed-form turn does |
| Geometry.QuarterTurnIsAxisAngle | cube.js:355-358 | the exact quarter-turn orientation moves every direction as the axis–angle rotation of ±π/2 does (right-hand rule) |
| Geometry.Centre | cube.js:218-222 | a slot's centre, relative to the cube's centre, has every coordinate ±1 |
| Moves.Lookup | cube.js:287-306 | exactly the twelve listed names are moves, an unknown name gives no move, and every move is a quarter turn of sign ±1 |
| Moves.Reverse | cube.js:288-299 | the reversed move turns the same layer about the same axis by the opposite angle, in the opposite sense, and its slot update undoes the original move's |
| Moves.PrimeReverses | cube.js:288-299 | for each face, the primed move is the unprimed one reversed, and exactly one of the two turns clockwise |
| Moves.InLayer | cube.js:406-414 | layer membership is exact integer equality of the slot's coordinate on the axis with the layer (its four members are listed by `Moves.LayerSlots`) |
| Moves.LayerSlots | cube.js:406-414 | a layer holds exactly four distinct slots: those whose coordinate on the axis equals the layer |
| Moves.SlotTurn | cube.js:388-394 | the per-axis slot update keeps the coordinate on the turned axis and moves every slot to a different one |
| Moves.SlotTurnKeepsLayer | cube.js:388-394 | the slot update never moves a cubie out of the turned layer |
| Moves.SlotTurnInverse | cube.js:388-394 | the clockwise and counter-clockwise slot updates undo each other, in both orders |
| Moves.SlotTurnIsFourCycle | cube.js:388-394 | the slot update moves every slot, does not return it after two steps, and does after four |
| Moves.SlotTurnAgreesAboutZ | cube.js:392-393 | about z, the slot update moves a slot's centre as the turn's rotation does (the closed-form turn, which the two lemmas above tie to the orientation update and to Rodrigues' formula) |
| Moves.SlotTurnOpposesAboutXAndY | cube.js:388-391 | about x and y, the slot update moves a slot's centre by the opposite rotation, never by the turn's own |
| Cubies.SideFacing | cube.js:418-425 | every signed axis direction is the outward normal of exactly the named side |
| Cubies.FaceTable | cube.js:230-237 | the six face-table rows, one per signed axis normal, each coloured with its side's colour exactly when the slot lies on that side (characterised by `Cubies.CreatedFacets`) |
| Cubies.CreateCubie | cube.js:216-237 | a new cubie's home and current slot are its creation slot, it is unturned, and it carries the coloured rows of its face table as facets (characterised by `Cubies.CreatedFacets`) |
| Cubies.Coloured | cube.js:239-241 | a face is drawn exactly for the face-table rows that carry a colour |
| Cubies.CreatedFacets | cube.js:230-236 | a new cubie has three coloured faces, one per side its slot touches, each in that side's colour, with pairwise distinct normals |
| Cubies.FreshCubies | cube.js:199-205 | the set-up creates eight cubies whose home and current slot are the loop's slots, in order |
| Cubies.TurnCubie | cube.js:383-396 | turning keeps a cubie's home and faces, and keeps it in or out of the turned layer |
| Cubies.TurnCubies | cube.js:383-403 | turning keeps every cubie's home and faces and leaves cubies outside the layer untouched |
| Cubies.LayerHoldsFour | cube.js:406-414 | when the slots are a permutation, every layer holds exactly four of the eight cubies |
| Cubies.OccupantsAfterTurn | cube.js:383-403 | after a turn, a slot holds as many cubies as the slot it was turned from held before |
| Cubies.TurnKeepsPermutation | cube.js:383-403 | a turn keeps exactly one cubie in every slot |
| Cubies.FreshIsPermutation | cube.js:199-205 | the set-up puts exactly one cubie in every slot |
| Cubies.TurnKeepsOrientationsValid | cube.js:360-363 | a turn keeps every orientation one of the 24 rotations |
| Cubies.TurnThenReverse | cube.js:288-299 | a move followed by its reverse restores every cubie: slot and orientation |
| Cubies.TurnFourTimes | cube.js:383-403 | the same move four times restores every cubie |
| Detector.LastMatch | cube.js:434-442 | a cubie shows no colour on a side exactly when none of its faces points there; otherwise it shows the colour of a face that does |
| Detector.ScanSide | cube.js:431-450 | one side's scan over the cubies in order: each cubie of the layer that shows a colour has it collected, while a layer cubie with no matching face clears the all-matched flag and the scan goes on collecting the colours of the remaining layer cubies (characterised by `Detector.ScanMatched` and `Detector.ScanColors`) |
| Detector.SideUniform | cube.js:452-454 | a side passes when its scan found a colour for every cubie of the layer, collected four colours, and all are the side's colour (characterised by `Detector.SideUniformIff`) |
| Detector.IsSolved | cube.js:416-457 | the cube is solved when all six sides pass (characterised by `Detector.IsSolvedIff`) |
| Detector.ScanMatched | cube.js:431-450 | a side's scan finds a colour for every cubie in its layer exactly when each of them has a face pointing outward there |
| Detector.ScanColors | cube.js:443-452 | every colour the scan collects is the side's colour exactly when every matched cubie of the layer shows that colour |
| Detector.SideUniformIff | cube.js:452-454 | a side passes exactly when four cubies lie in its layer and each shows the side's colour outward |
| Detector.IsSolvedIff | cube.js:416-457 | for a permutation of the slots, the detector accepts exactly when every side shows its own colour on all of its cubies |
| Detector.FreshIsSolved | cube.js:416-457 | the detector accepts the cube as set up |
| Detector.FreshCubieShowsColor | cube.js:230-236 | a new cubie on a side shows that side's colour outward |
| Detector.UnturnedShowsColor | cube.js:434-442 | an unturned cubie whose faces carry their creation colours shows a side's colour on any side one of its faces points out of |
| Detector.TurnedCubieMismatch | cube.js:434-442 | a set-up cubie turned a quarter about an axis shows the wrong colour (or none) on every side not across that axis |
| Detector.MismatchUnsolves | cube.js:431-454 | one cubie on a side showing anything but that side's colour makes the detector reject the cube |
| Detector.SideAcross | cube.js:406-424 | every slot lies on a side whose normal is along the axis after a given one, so not along the given axis |
| Detector.TurnedCubieUnsolves | cube.js:416-457 | a cube holding a cubie turned once from its creation orientation, with its creation colours, is rejected |
| Detector.SingleTurnUnsolves | cube.js:416-457 | any single turn of the set-up cube makes the detector reject it |
| CubeGame.Fresh | cube.js:140-152 | the set-up game: the created cubies, counter 0, marked solved, no turn in flight, active (shown well formed and agreeing with the detector by `CubeGame.FreshIsValid`) |
| CubeGame.FreshIsWellFormed | cube.js:199-205 | the set-up cubies have their loop slots as homes, their creation faces, one cubie per slot and identity orientations |
| CubeGame.FreshIsValid | cube.js:140-152 | the set-up game is well formed (homes, faces, permutation, valid orientations) and its solved flag agrees with the detector |
| CubeGame.StartMove | cube.js:278-307 | a move request is ignored while a turn is in flight or the game is inactive; otherwise it adds one to the counter only when counted, changes no cubie, and starts a turn exactly for a listed move, namely that move's table entry |
| CubeGame.FinishRotation | cube.js:352-377 | the end of a turn commits the turn in flight to the cubies, clears the in-flight flag, re-runs the detector so the flag agrees with it, keeps the counter, and keeps the game well formed |
| CubeGame.TurnKeepsValid | cube.js:383-403 | a turn of well-formed cubies gives well-formed cubies |
| CubeGame.PerformMove | cube.js:278-377 | a whole move: ignored when busy or inactive; otherwise counted or not, an unknown name changes no cubie, a known one turns its layer and leaves the flag agreeing with the detector whatever it said before; well-formedness and an agreeing flag are always kept |
| CubeGame.MoveThenPrime | cube.js:288-299 | a face move and its primed move, in either order, restore the cubies, and the flag then equals the detector's verdict on the restored cube |
| CubeGame.MoveFourTimes | cube.js:288-299 | the same move four times restores the cubies, with the counter raised by four when counted |
| CubeGame.FirstMoveFromFresh | cube.js:278-285 | the first counted move of a set-up game leaves the counter at 1 and the cube marked unsolved |
| CubeGame.HomeCubies | cube.js:490-492 | return to the start puts every cubie at its home slot with the identity orientation, keeping its faces; for well-formed cubies the result is exactly the set-up cubies |
| CubeGame.HomeOfWellFormed | cube.js:490-492 | each well-formed cubie, sent home unturned, is the cubie the set-up creates at that position |
| CubeGame.HomeIsFresh | cube.js:490-528 | for well-formed cubies, returning every cubie home rebuilds the set-up cube exactly, which the detector accepts |
| CubeGame.SolveCube | cube.js:486-533 | "solve" is ignored while a turn is in flight or when already marked solved; otherwise it sends every cubie home, clears the counter and marks the cube solved, and for a well-formed game the cubies are then the set-up cubies, still well formed, with the flag agreeing with the detector |
| CubeGame.SolveKeepsValid | cube.js:486-533 | "solve" keeps any well-formed game well formed; when it acts, afterwards the detector accepts and the flag agrees, even if the flag disagreed before; when it is ignored an agreeing flag stays agreeing |
| CubeGame.SolveTwice | cube.js:486-487 | a second "solve" right after the first changes nothing |
| CubeGame.ResetCube | cube.js:535-541 | reset is ignored while a turn is in flight; otherwise the game is exactly the set-up game: the created cubies, counter 0, marked solved, no turn in flight, active, and well formed |
| CubeGame.UpperChar | cube.js:695 | upper-casing a character turns a lower-case ASCII letter into its capital and leaves every other character as it is (ASCII-only upper-casing; see "Left out") |
| CubeGame.Upper | cube.js:695 | upper-casing a key name keeps its length, upper-cases each character, and leaves no lower-case letter |
| CubeGame.UpperTwice | cube.js:695 | upper-casing an upper-cased key name changes nothing |
| CubeGame.KeyToMove | cube.js:695-705 | a key selects a move exactly when its upper-cased text is a face letter; the move is that letter, primed when Shift is held |
| CubeGame.OnKeyDown | cube.js:693-708 | a key press is ignored while a turn is in flight, before set-up, or for unmapped keys; otherwise it starts a counted turn of the move the key maps to, changing no cubie and neither the solved nor the active flag |
| CubeGame.KeyCaseInsensitive | cube.js:695-704 | for every key: the map sees it only through its upper-cased form, so either case selects the same move; a one-character key selects a move exactly when it is one of u, d, l, r, f, b in either case; longer key names select none; with Shift the move is the unshifted one primed |
| Shuffle.SettleBy | cube.js:330-346 | a turn in flight settles, by the end-of-turn step, once its end time has come, and only then; otherwise nothing changes |
| Shuffle.Attempt | cube.js:477-480 | a shuffle request never counts a move and keeps the game well formed |
| Shuffle.ShuffleFrom | cube.js:466-480 | after the remaining requests the completion step leaves the counter at 0 and the cube marked unsolved, whatever the cubies are |
| Shuffle.Shuffle | cube.js:461-484 | a shuffle is ignored while a turn is in flight; otherwise it ends with counter 0 and the cube marked unsolved, keeping the game well formed |
| Shuffle.Settled | cube.js:352-377 | once the turn in flight settles, no turn is in flight and the flag agrees with the detector |
| Shuffle.AcceptedAttempt | cube.js:278-280 | a request made after the previous turn has settled starts a new turn that settles 400 ms plus that turn's frame lag later |
| Shuffle.DroppedAttempt | cube.js:279 | a request made while a turn is in flight has no effect |
| Shuffle.DroppedRun | cube.js:279 | a run of requests all made before the turn in flight settles has no effect |
| Shuffle.CompletionInFlight | cube.js:469-471 | a turn that settles after the completion step is still in flight when the shuffle reports completion |
| Shuffle.CompletionSettles | cube.js:469-471 | a turn due by the completion step has settled when the shuffle reports completion |
| Shuffle.AcceptThenDrop | cube.js:278-280 | a request made once no turn is in flight starts a turn, and the requests made before it settles are dropped, so the shuffle continues from the first request after that |
| Shuffle.AcceptThenDropTwo | cube.js:477-480 | when the turn it starts is at most 50 ms late, an accepted request is followed by two dropped ones, and its turn has settled by the third |
| Shuffle.AcceptThenComplete | cube.js:466-480 | when its turn is at most 50 ms late, request 18 is accepted and its turn is still in flight at completion |
| Shuffle.ShuffleFromEveryThird | cube.js:466-480 | when every turn is at most 50 ms late, each by its own amount, from request 3j on only every third request takes effect, and the last is still in flight at completion |
| Shuffle.EveryThirdFromStart | cube.js:477-480 | every third of the twenty requests, from the first, are requests 0, 3, 6, 9, 12, 15 and 18 |
| Shuffle.ShuffleKeepsEveryThirdPick | cube.js:461-484 | when every turn is at most 50 ms late, each by its own amount, only requests 0, 3, 6, 9, 12, 15 and 18 of the twenty take effect; when the last settles, the cubies are those seven moves applied in order, the counter is 0 and the flag agrees with the detector |
| Shuffle.ShuffleCanHideSolvedCube | cube.js:469-471 | when every turn is more than 200 and at most 350 ms late, each by its own amount, requests 0, 5, 10 and 15 take effect; if they pick the same move, the cube ends with no turn in flight, back where it started, yet marked unsolved, and from the set-up cube the detector would accept it |
| Navigation.LastSegment | navigation.js:3 | the current page is the longest slash-free suffix of the path: it holds no '/', and what precedes it ends in '/' |
| Navigation.IndexOf | navigation.js:5 | the lookup gives -1 exactly for an unlisted page, and otherwise the first position holding it |
| Navigation.Neighbour | navigation.js:7-11 | from a position in the list, or -1 for an unlisted page, a key press goes only to a listed page, and only for the two arrow keys |
| Navigation.Target | navigation.js:7-11 | a key press goes only to a listed page, and only for the two arrow keys |
| Navigation.NeighbourFollowsTables | navigation.js:7-10 | on each listed page the arrows go where the page-by-page "next" and "previous" tables say |
| Navigation.UnlistedFollowsTables | navigation.js:5-10 | the tables send an unlisted page to index.html on the right arrow and nowhere on the left |
| Navigation.IndexOfDistinct | navigation.js:5 | in a list without repeats, looking up the i-th entry gives i |
| Navigation.TargetFollowsTables | navigation.js:4-11 | the right arrow follows a page-by-page "next" table (an unlisted page goes to index.html, end.html goes nowhere), the left arrow a "previous" table, and other keys go nowhere |
| Navigation.ArrowsStepThroughPages | navigation.js:7-10 | on the i-th page the right arrow goes to page i+1 unless it is the last, and the left arrow goes to page i-1 unless it is the first |
| Navigation.UnlistedPageGoesHome | navigation.js:5-10 | on an unlisted page the right arrow goes to index.html and the left arrow goes nowhere |
| Navigation.TrailingSlashIsUnlisted | navigation.js:3-8 | a path ending in '/' names the empty page, which is unlisted, so the right arrow goes to index.html |
| Navigation.SegmentOfJoin | navigation.js:3 | the page of a path is the name written after its last '/' |
| Navigation.RightThenLeftReturns | navigation.js:7-10 | from any but the last page, right then left comes back to the same page |
| BinaryRain.DigitText | script.js:165 | every digit reads "1" exactly when the draw is above one half, and "0" otherwise |
| BinaryRain.Tick | script.js:172-178 | a tick puts the new digit last and drops only the oldest digits, and only when over 100; a buffer within the cap grows by one until it holds 100 digits |
| BinaryRain.Emitted | script.js:162-173 | the n-th created digit carries creation number n and the n-th draw's text |
| BinaryRain.Rain | script.js:160-179 | the buffer after a run of ticks, one tick per draw (characterised by `BinaryRain.RainKeepsNewest` and `BinaryRain.RainBounded`) |
| BinaryRain.RainKeepsNewest | script.js:160-179 | after n ticks the buffer holds min(n, 100) digits, exactly the newest ones, oldest first |
| BinaryRain.RainBounded | script.js:175-178 | the buffer never exceeds 100 digits, and each reads "0" or "1" |
| Grid.LineCountIsCeiling | script.js:200-206 | the number of lines for an extent is the ceiling of extent/50, and 0 for a non-positive extent |
| Grid.Layout | script.js:199-214 | the lines the two loops draw: the vertical ones left to right, then the horizontal ones top to bottom (characterised by `Grid.LayoutPlacesEveryLine`) |
| Grid.LayoutPlacesEveryLine | script.js:199-214 | there is a vertical line exactly at each multiple of 50 in [0, width) and a horizontal one exactly at each multiple of 50 in [0, height), with all vertical lines listed before any horizontal one |
| Grid.CreateGrid | script.js:192-215 | the two loops, whatever lines were there before, lay exactly that layout, so redrawing at the same size gives the same lines |

## Left out

- Rendering: the 3D scene, camera, lights, meshes, wireframes, the camera orbit and its drag clamp, notifications, injected styles and HTML. These are drawing and DOM output with no bearing on the game state.
- Turn and "solve" animation: the eased interpolation, `Date.now`, animation frames and the floating-point drawn positions. Only the committed effect of each turn is modelled, plus, in `Shuffle`, the time at which a turn settles.
- The 850 ms "solve" timer: `CubeGame.SolveCube` applies the final state at once. During those 850 ms the source holds the in-flight flag, which the atomic model has no window for.
- Listener registration and clean-up, the initialisation retry loop and the missing-container failure path of the set-up. `CubeGame.ResetCube` assumes the set-up succeeds.
- Reset removes the keyboard listener (cube.js:537, 669) and does not register it again. After a reset, `CubeGame.OnKeyDown` describes the handler that was removed. This plumbing is not modelled.
- The automatic shuffles 1000 ms after the start and after a reset (cube.js:122-124, 543). These are timers around `Shuffle.Shuffle`, which models the shuffle itself.
- `Math.random`: the shuffle's picks, the binary rain's coin flips and the digits' random styling are inputs or omitted.
- Shuffle.Shuffle: the shuffle is modelled as running without other input. In the source, a user move, "solve", reset or a second shuffle can be accepted in the idle gaps between its requests, because the shuffle's guard (cube.js:462) checks only the in-flight flag and each request goes through the ordinary move guard (cube.js:279).
- Shuffle.Shuffle: timer drift is not modelled. Request k is taken to run exactly at k·150 ms, and a turn to settle exactly 400 ms plus its own given lag after it starts. A turn due at the same millisecond as a request or the completion settles first; this decides the boundary lags 50 in `Shuffle.ShuffleKeepsEveryThirdPick` and 350 in `Shuffle.ShuffleCanHideSolvedCube`.
- Move lookups by an inherited object property name (such as "constructor") would find a value in the source's plain move table. Move names here come only from the buttons, the key map and the shuffle list, so the table is modelled as exactly its listed entries. The key map cannot be reached this way: the key is upper-cased first, and no inherited property name is all capitals.
- CubeGame.UpperChar: upper-casing is modelled for ASCII letters only; every other character is kept as it is, whereas the browser's `toUpperCase` also upper-cases non-ASCII letters such as 'é'. No non-ASCII character upper-cases to one of the six face letters, so the key map selects the same moves.
- CubeGame.Upper: upper-cases character by character with `CubeGame.UpperChar`, so it inherits the same ASCII-only limitation; `toUpperCase` can also change a string's length ('ß' becomes "SS"), which the model does not.
- Paint blobs, colour flow, the grid highlight by pointer distance, and the wave canvas in script.js. These are floating-point effects with no state beyond appearance.
- The `window.location` assignment in navigation.js: only the choice of target page is modelled.

=== FILE: cubies.dfy ===
/**
 * The eight cubies of the game: where each was created, where it is now,
 * how it is turned, and its coloured facets; the committed effect of a face
 * turn on them; and the invariant that the cubies always fill the 8 slots.
 */
module Cubies {
  import opened Options
  import opened Geometry
  import opened Moves

  /** The six outer sides, in the order the game lists them. */
  datatype Side = Front | Back | Right | Left | Top | Bottom

  const Sides: seq<Side> := [Front, Back, Right, Left, Top, Bottom]

  /** The outward normal of a side. */
  function SideNormal(side: Side): Dir
  {
    match side
    case Front => PZ
    case Back => NZ
    case Right => PX
    case Left => NX
    case Top => PY
    case Bottom => NY
  }

  /** The side an outward normal points out of. */
  function SideFacing(d: Dir): (side: Side)
    ensures SideNormal(side) == d
    ensures forall s :: SideNormal(s) == d ==> s == side
  {
    match d.axis
    case X => if d.positive then Right else Left
    case Y => if d.positive then Top else Bottom
    case Z => if d.positive then Front else Back
  }

  /** The colour constant of a side, as a 24-bit RGB value. */
  function SideColor(side: Side): int
  {
    match side
    case Front => 0xff4444
    case Back => 0x00cc99
    case Right => 0x4488ff
    case Left => 0x44dd44
    case Top => 0xffff44
    case Bottom => 0xff44ff
  }

  /** The layer holding a side's cubies: coordinate 1 on its axis for a positive normal, else 0. */
  function SideLayer(side: Side): Bit
  {
    if SideNormal(side).positive then 1 else 0
  }

  predicate OnSide(s: Slot, side: Side)
  {
    InLayer(s, SideNormal(side).axis, SideLayer(side))
  }

  /** A coloured facet: its normal in the cubie's own frame and its colour tag. */
  datatype Facet = Facet(normal: Dir, color: int)

  datatype Cubie = Cubie(home: Slot, slot: Slot, orient: Rotation, facets: seq<Facet>)

  /** One row of the game's per-cubie face table: a local normal and its colour, if the cubie shows one. */
  datatype FaceData = FaceData(normal: Dir, color: Option<int>)

  /** The face table of a cubie created at `s`: a side's colour where the cubie touches that side. */
  function FaceTable(s: Slot): seq<FaceData>
  {
    [ FaceData(PZ, if s.z == 1 then Some(SideColor(Front)) else None),
      FaceData(NZ, if s.z == 0 then Some(SideColor(Back)) else None),
      FaceData(PX, if s.x == 1 then Some(SideColor(Right)) else None),
      FaceData(NX, if s.x == 0 then Some(SideColor(Left)) else None),
      FaceData(PY, if s.y == 1 then Some(SideColor(Top)) else None),
      FaceData(NY, if s.y == 0 then Some(SideColor(Bottom)) else None) ]
  }

  /** The facets actually created: the rows that have a colour, in table order. */
  function Coloured(rows: seq<FaceData>): (fs: seq<Facet>)
    ensures |fs| <= |rows|
    ensures forall f :: f in fs <==> exists i :: 0 <= i < |rows| && rows[i].color.Some?
                                       && f == Facet(rows[i].normal, rows[i].color.value)
  {
    if rows == [] then []
    else
      var rest := Coloured(rows[1..]);
      if rows[0].color.Some? then [Facet(rows[0].normal, rows[0].color.value)] + rest else rest
  }

  /** A new cubie at slot `s`: home and current slot `s`, identity orientation, its coloured facets. */
  function CreateCubie(s: Slot): Cubie
  {
    Cubie(s, s, Identity, Coloured(FaceTable(s)))
  }

  /** One facet per pair of opposite sides: the side of the pair the slot touches, in that side's colour. */
  function SideFacets(s: Slot): seq<Facet>
  {
    [ if s.z == 1 then Facet(PZ, SideColor(Front)) else Facet(NZ, SideColor(Back)),
      if s.x == 1 then Facet(PX, SideColor(Right)) else Facet(NX, SideColor(Left)),
      if s.y == 1 then Facet(PY, SideColor(Top)) else Facet(NY, SideColor(Bottom)) ]
  }

  /** Three facets with distinct normals, each out of a side the slot touches in that side's colour, one per such side. */
  ghost predicate FitsSlot(s: Slot, fs: seq<Facet>)
  {
    && |fs| == 3
    && (forall i :: 0 <= i < 3 ==>
          OnSide(s, SideFacing(fs[i].normal)) && fs[i].color == SideColor(SideFacing(fs[i].normal)))
    && (forall i, j :: 0 <= i < j < 3 ==> fs[i].normal != fs[j].normal)
    && (forall side :: OnSide(s, side) ==> exists i :: 0 <= i < 3 && fs[i].normal == SideNormal(side))
  }

  /**
   * A new cubie shows three facets with distinct normals; each points out of a
   * side the cubie touches and carries that side's colour.
   */
  lemma CreatedFacets(s: Slot)
    ensures FitsSlot(s, CreateCubie(s).facets)
  {
    CreatedFacetList(s);
    SideFacetsFit(s);
  }

  lemma SideFacetsFit(s: Slot)
    ensures FitsSlot(s, SideFacets(s))
  {
    var fs := SideFacets(s);
    forall side | OnSide(s, side)
      ensures exists i :: 0 <= i < 3 && fs[i].normal == SideNormal(side)
    {
      var i := match side
        case Front => 0 case Back => 0
        case Right => 1 case Left => 1
        case Top => 2 case Bottom => 2;
      assert fs[i].normal == SideNormal(side);
    }
  }

  /** The coloured rows of a new cubie's face table are its side facets. */
  lemma CreatedFacetList(s: Slot)
    ensures CreateCubie(s).facets == SideFacets(s)
  {
    var rows := FaceTable(s);
    assert rows[4..][1..] == rows[5..];
    assert rows[2..][1..] == rows[3..] && rows[3..][1..] == rows[4..];
    assert rows[1..][1..] == rows[2..];
  }

  /** The cubies as the scene setup creates them, looping over x, then y, then z. */
  function FreshCubies(): (cs: seq<Cubie>)
    ensures |cs| == 8
    ensures forall i :: 0 <= i < 8 ==> cs[i].home == AllSlots[i] && cs[i].slot == AllSlots[i]
  {
    seq(8, i requires 0 <= i < 8 => CreateCubie(AllSlots[i]))
  }

  /** The committed effect of turn `m` on one cubie: a cubie in the turned layer moves and twists. */
  function TurnCubie(c: Cubie, m: MoveSpec): (r: Cubie)
    ensures r.home == c.home && r.facets == c.facets
    ensures InLayer(r.slot, m.axis, m.layer) == InLayer(c.slot, m.axis, m.layer)
  {
    if InLayer(c.slot, m.axis, m.layer) then
      SlotTurnKeepsLayer(m.axis, Clockwise(m), c.slot);
      c.(slot := SlotTurn(m.axis, Clockwise(m), c.slot),
         orient := Compose(QuarterTurn(m.axis, Clockwise(m)), c.orient))
    else c
  }

  /** The committed effect of turn `m` on all cubies, which keep their order. */
  function TurnCubies(cs: seq<Cubie>, m: MoveSpec): (r: seq<Cubie>)
    ensures |r| == |cs|
    ensures forall i :: 0 <= i < |cs| ==> r[i].home == cs[i].home && r[i].facets == cs[i].facets
    ensures forall i :: 0 <= i < |cs| && !InLayer(cs[i].slot, m.axis, m.layer) ==> r[i] == cs[i]
  {
    seq(|cs|, i requires 0 <= i < |cs| => TurnCubie(cs[i], m))
  }

  // ---------------------------------------------------------------------------
  // The permutation invariant.

  /** How many cubies sit at slot `t`. */
  function Occupants(cs: seq<Cubie>, t: Slot): nat
  {
    if cs == [] then 0
    else (if cs[0].slot == t then 1 else 0) + Occupants(cs[1..], t)
  }

  /** Every slot holds exactly one cubie: the current slots are a permutation of {0,1}³. */
  ghost predicate IsPermutation(cs: seq<Cubie>)
  {
    forall t: Slot :: Occupants(cs, t) == 1
  }

  /** How many cubies sit in a layer. */
  function CountInLayer(cs: seq<Cubie>, a: Axis, layer: Bit): nat
  {
    if cs == [] then 0
    else (if InLayer(cs[0].slot, a, layer) then 1 else 0) + CountInLayer(cs[1..], a, layer)
  }

  /** How many cubies sit at one of the slots `ts`. */
  function CountAt(cs: seq<Cubie>, ts: seq<Slot>): nat
  {
    if cs == [] then 0
    else (if cs[0].slot in ts then 1 else 0) + CountAt(cs[1..], ts)
  }

  lemma {:induction false} CountAtSplit(cs: seq<Cubie>, t: Slot, rest: seq<Slot>)
    requires t !in rest
    ensures CountAt(cs, [t] + rest) == Occupants(cs, t) + CountAt(cs, rest)
  {
    if cs != [] {
      CountAtSplit(cs[1..], t, rest);
    }
  }

  lemma {:induction false} CountAtDistinct(cs: seq<Cubie>, ts: seq<Slot>)
    requires IsPermutation(cs)
    requires forall i, j :: 0 <= i < j < |ts| ==> ts[i] != ts[j]
    ensures CountAt(cs, ts) == |ts|
  {
    if ts == [] {
      CountAtNone(cs);
    } else {
      assert ts == [ts[0]] + ts[1..];
      CountAtSplit(cs, ts[0], ts[1..]);
      CountAtDistinct(cs, ts[1..]);
    }
  }

  /** Helper for the base case of `CountAtDistinct`: no slots, no occupants. */
  lemma {:induction false} CountAtNone(cs: seq<Cubie>)
    ensures CountAt(cs, []) == 0
  {
    if cs != [] {
      CountAtNone(cs[1..]);
    }
  }

  lemma {:induction false} CountInLayerIsCountAt(cs: seq<Cubie>, a: Axis, layer: Bit)
    ensures CountInLayer(cs, a, layer) == CountAt(cs, LayerSlots(a, layer))
  {
    if cs != [] {
      CountInLayerIsCountAt(cs[1..], a, layer);
    }
  }

  lemma {:induction false} CountAtAllSlots(cs: seq<Cubie>)
    ensures CountAt(cs, AllSlots) == |cs|
  {
    if cs != [] {
      AllSlotsComplete(cs[0].slot);
      CountAtAllSlots(cs[1..]);
    }
  }

  /** With the slots a permutation there are exactly 8 cubies and every layer holds exactly 4. */
  lemma LayerHoldsFour(cs: seq<Cubie>, a: Axis, layer: Bit)
    requires IsPermutation(cs)
    ensures |cs| == 8
    ensures CountInLayer(cs, a, layer) == 4
  {
    CountAtAllSlots(cs);
    CountAtDistinct(cs, AllSlots);
    CountInLayerIsCountAt(cs, a, layer);
    CountAtDistinct(cs, LayerSlots(a, layer));
  }

  /** Where a slot's new occupant came from: the turn run backwards on the turned layer. */
  function Origin(m: MoveSpec, t: Slot): Slot
  {
    if InLayer(t, m.axis, m.layer) then SlotTurn(m.axis, !Clockwise(m), t) else t
  }

  lemma TurnedCubieAt(c: Cubie, m: MoveSpec, t: Slot)
    ensures (TurnCubie(c, m).slot == t) == (c.slot == Origin(m, t))
  {
    SlotTurnInverse(m.axis, Clockwise(m), c.slot);
    SlotTurnInverse(m.axis, Clockwise(m), t);
    SlotTurnKeepsLayer(m.axis, !Clockwise(m), t);
  }

  /** After a turn, slot `t` holds exactly the cubies that held its origin before. */
  lemma {:induction false} OccupantsAfterTurn(cs: seq<Cubie>, m: MoveSpec, t: Slot)
    ensures Occupants(TurnCubies(cs, m), t) == Occupants(cs, Origin(m, t))
  {
    if cs != [] {
      TurnedCubieAt(cs[0], m, t);
      assert TurnCubies(cs, m)[1..] == TurnCubies(cs[1..], m);
      OccupantsAfterTurn(cs[1..], m, t);
    }
  }

  /** A face turn keeps the current slots a permutation of {0,1}³. */
  lemma TurnKeepsPermutation(cs: seq<Cubie>, m: MoveSpec)
    requires IsPermutation(cs)
    ensures IsPermutation(TurnCubies(cs, m))
  {
    forall t: Slot
      ensures Occupants(TurnCubies(cs, m), t) == 1
    {
      OccupantsAfterTurn(cs, m, t);
    }
  }

  /** With pairwise distinct slots, a slot holds one cubie if some cubie is there and none otherwise. */
  lemma {:induction false} OccupantsWhenDistinct(cs: seq<Cubie>, t: Slot)
    requires forall i, j :: 0 <= i < j < |cs| ==> cs[i].slot != cs[j].slot
    ensures Occupants(cs, t) == if exists i :: 0 <= i < |cs| && cs[i].slot == t then 1 else 0
  {
    if cs != [] {
      OccupantsWhenDistinct(cs[1..], t);
      if exists i :: 0 <= i < |cs| && cs[i].slot == t {
        var i :| 0 <= i < |cs| && cs[i].slot == t;
        if i > 0 {
          assert cs[1..][i - 1].slot == t;
        }
      }
    }
  }

  lemma FreshSlotsDistinct()
    ensures forall i, j :: 0 <= i < j < |FreshCubies()| ==> FreshCubies()[i].slot != FreshCubies()[j].slot
  {
    assert forall i, j :: 0 <= i < j < 8 ==> AllSlots[i] != AllSlots[j];
  }

  /** The cubies of a fresh scene fill every slot once. */
  lemma FreshIsPermutation()
    ensures IsPermutation(FreshCubies())
  {
    var cs := FreshCubies();
    FreshSlotsDistinct();
    forall t: Slot
      ensures Occupants(cs, t) == 1
    {
      var j := 4 * t.x + 2 * t.y + t.z;
      assert cs[j].slot == t;
      OccupantsWhenDistinct(cs, t);
    }
  }

  // ---------------------------------------------------------------------------
  // Orientations, and turn algebra on the whole set of cubies.

  /** Every cubie's orientation is one of the 24 rotations. */
  predicate OrientationsValid(cs: seq<Cubie>)
  {
    forall i :: 0 <= i < |cs| ==> IsRotation(cs[i].orient)
  }

  lemma TurnKeepsOrientationsValid(cs: seq<Cubie>, m: MoveSpec)
    requires OrientationsValid(cs)
    ensures OrientationsValid(TurnCubies(cs, m))
  {
    forall i | 0 <= i < |cs|
      ensures IsRotation(TurnCubies(cs, m)[i].orient)
    {
      ComposeIsRotation(QuarterTurn(m.axis, Clockwise(m)), cs[i].orient);
    }
  }

  /** A turn followed by the same turn reversed restores every slot and every orientation. */
  lemma TurnThenReverse(cs: seq<Cubie>, m: MoveSpec)
    requires m.quarter != 0
    ensures TurnCubies(TurnCubies(cs, m), Reverse(m)) == cs
  {
    var r := TurnCubies(TurnCubies(cs, m), Reverse(m));
    forall i | 0 <= i < |cs|
      ensures r[i] == cs[i]
    {
      var c := cs[i];
      if InLayer(c.slot, m.axis, m.layer) {
        SlotTurnInverse(m.axis, Clockwise(m), c.slot);
        QuarterTurnInverse(m.axis, Clockwise(m), c.orient);
      }
    }
  }

  /** Four identical turns restore every slot and every orientation. */
  lemma TurnFourTimes(cs: seq<Cubie>, m: MoveSpec)
    ensures TurnCubies(TurnCubies(TurnCubies(TurnCubies(cs, m), m), m), m) == cs
  {
    var r := TurnCubies(TurnCubies(TurnCubies(TurnCubies(cs, m), m), m), m);
    forall i | 0 <= i < |cs|
      ensures r[i] == cs[i]
    {
      var c := cs[i];
      if InLayer(c.slot, m.axis, m.layer) {
        SlotTurnIsFourCycle(m.axis, Clockwise(m), c.slot);
        QuarterTurnFour(m.axis, Clockwise(m), c.orient);
      }
    }
  }
}

=== FILE: detector.dfy ===
/**
 * The solved-state detector. For each of the six sides it visits the cubies
 * in that side's layer, looks for the facet whose current world normal is the
 * side's normal, and requires four matches, all in the side's colour.
 */
module Detector {
  import opened Options
  import opened Geometry
  import opened Moves
  import opened Cubies

  /**
   * The colour of the facet whose normal, turned by `o`, is `n`. The game
   * visits the facets in order and keeps the last match.
   */
  function LastMatch(fs: seq<Facet>, o: Rotation, n: Dir): (r: Option<int>)
    ensures r.None? <==> forall i :: 0 <= i < |fs| ==> Apply(o, fs[i].normal) != n
    ensures r.Some? ==> exists i :: 0 <= i < |fs| && Apply(o, fs[i].normal) == n && r.value == fs[i].color
  {
    if fs == [] then None
    else if Apply(o, fs[|fs| - 1].normal) == n then Some(fs[|fs| - 1].color)
    else
      var r := LastMatch(fs[..|fs| - 1], o, n);
      assert forall i :: 0 <= i < |fs| - 1 ==> fs[..|fs| - 1][i] == fs[i];
      r
  }

  /** Every facet of the cubie carries the colour of the side its normal pointed out of at creation. */
  predicate ColouredAsCreated(c: Cubie)
  {
    forall f :: 0 <= f < |c.facets| ==> c.facets[f].color == SideColor(SideFacing(c.facets[f].normal))
  }

  /** The colour a cubie shows towards `n`, if any. */
  function MatchingColor(c: Cubie, n: Dir): Option<int>
  {
    LastMatch(c.facets, c.orient, n)
  }

  /** What the scan of one side collects: whether every visited cubie matched, and the colours pushed. */
  datatype Scan = Scan(allMatched: bool, colors: seq<int>)

  /** The scan of one side over the cubies in array order, skipping cubies outside its layer. */
  function ScanSide(cs: seq<Cubie>, side: Side): Scan
  {
    if cs == [] then Scan(true, [])
    else
      var rest := ScanSide(cs[1..], side);
      if !OnSide(cs[0].slot, side) then rest
      else match MatchingColor(cs[0], SideNormal(side))
        case None => Scan(false, rest.colors)
        case Some(color) => Scan(rest.allMatched, [color] + rest.colors)
  }

  /** One side passes: no visited cubie lacked a match, exactly four colours, all the side's colour. */
  predicate SideUniform(cs: seq<Cubie>, side: Side)
  {
    var scan := ScanSide(cs, side);
    && scan.allMatched
    && |scan.colors| == 4
    && forall k :: 0 <= k < |scan.colors| ==> scan.colors[k] == SideColor(side)
  }

  /** The detector: every side passes. */
  predicate IsSolved(cs: seq<Cubie>)
  {
    forall k :: 0 <= k < |Sides| ==> SideUniform(cs, Sides[k])
  }

  /** Every cubie on the side shows the side's colour towards it. */
  ghost predicate ShowsColor(cs: seq<Cubie>, side: Side)
  {
    forall i :: 0 <= i < |cs| && OnSide(cs[i].slot, side) ==>
      MatchingColor(cs[i], SideNormal(side)) == Some(SideColor(side))
  }

  /** A cubie on the side that shows a colour towards it shows the side's colour. */
  predicate MatchIsSideColor(c: Cubie, side: Side)
  {
    OnSide(c.slot, side) && MatchingColor(c, SideNormal(side)).Some? ==>
      MatchingColor(c, SideNormal(side)).value == SideColor(side)
  }

  ghost predicate MatchesAreSideColor(cs: seq<Cubie>, side: Side)
  {
    forall i :: 0 <= i < |cs| ==> MatchIsSideColor(cs[i], side)
  }

  predicate AllColor(colors: seq<int>, color: int)
  {
    forall k :: 0 <= k < |colors| ==> colors[k] == color
  }

  lemma {:induction false} ScanMatched(cs: seq<Cubie>, side: Side)
    ensures ScanSide(cs, side).allMatched <==>
              forall i :: 0 <= i < |cs| && OnSide(cs[i].slot, side) ==> MatchingColor(cs[i], SideNormal(side)).Some?
    ensures ScanSide(cs, side).allMatched ==>
              |ScanSide(cs, side).colors| == CountInLayer(cs, SideNormal(side).axis, SideLayer(side))
  {
    if cs != [] {
      ScanMatched(cs[1..], side);
      assert forall i :: 1 <= i < |cs| ==> cs[i] == cs[1..][i - 1];
    }
  }

  lemma {:induction false} ScanColors(cs: seq<Cubie>, side: Side)
    ensures AllColor(ScanSide(cs, side).colors, SideColor(side)) <==> MatchesAreSideColor(cs, side)
  {
    if cs != [] {
      ScanColors(cs[1..], side);
      var rest := ScanSide(cs[1..], side);
      var colors := ScanSide(cs, side).colors;
      var color := SideColor(side);
      assert forall i :: 1 <= i < |cs| ==> cs[i] == cs[1..][i - 1];
      assert MatchesAreSideColor(cs, side) <==> MatchIsSideColor(cs[0], side) && MatchesAreSideColor(cs[1..], side);
      if OnSide(cs[0].slot, side) && MatchingColor(cs[0], SideNormal(side)).Some? {
        assert colors == [MatchingColor(cs[0], SideNormal(side)).value] + rest.colors;
        AllColorCons(MatchingColor(cs[0], SideNormal(side)).value, rest.colors, color);
      }
    }
  }

  lemma AllColorCons(x: int, rest: seq<int>, color: int)
    ensures AllColor([x] + rest, color) <==> x == color && AllColor(rest, color)
  {
    if x == color && AllColor(rest, color) {
      forall k | 0 <= k < |[x] + rest|
        ensures ([x] + rest)[k] == color
      {
        if k > 0 {
          assert ([x] + rest)[k] == rest[k - 1];
        }
      }
    }
    if AllColor([x] + rest, color) {
      assert ([x] + rest)[0] == x;
      forall k | 0 <= k < |rest|
        ensures rest[k] == color
      {
        assert ([x] + rest)[k + 1] == rest[k];
      }
    }
  }

  /**
   * A side passes exactly when its layer holds four cubies and every one of
   * them shows the side's colour towards it.
   */
  lemma SideUniformIff(cs: seq<Cubie>, side: Side)
    ensures SideUniform(cs, side) <==>
              CountInLayer(cs, SideNormal(side).axis, SideLayer(side)) == 4 && ShowsColor(cs, side)
  {
    ScanMatched(cs, side);
    ScanColors(cs, side);
  }

  /** While the slots are a permutation, the detector holds exactly when every side shows its colour. */
  lemma IsSolvedIff(cs: seq<Cubie>)
    requires IsPermutation(cs)
    ensures IsSolved(cs) <==> forall side :: ShowsColor(cs, side)
  {
    forall side
      ensures SideUniform(cs, side) <==> ShowsColor(cs, side)
    {
      SideUniformIff(cs, side);
      LayerHoldsFour(cs, SideNormal(side).axis, SideLayer(side));
    }
    if IsSolved(cs) {
      forall side
        ensures ShowsColor(cs, side)
      {
        SideListed(side);
        var k :| 0 <= k < |Sides| && Sides[k] == side;
        assert SideUniform(cs, Sides[k]);
      }
    }
  }

  lemma SideListed(side: Side)
    ensures exists k :: 0 <= k < |Sides| && Sides[k] == side
  {
    var k := match side
      case Front => 0 case Back => 1 case Right => 2
      case Left => 3 case Top => 4 case Bottom => 5;
    assert Sides[k] == side;
  }

  /** The detector reports a freshly created cube as solved. */
  lemma FreshIsSolved()
    ensures IsSolved(FreshCubies())
  {
    var cs := FreshCubies();
    FreshIsPermutation();
    forall side
      ensures ShowsColor(cs, side)
    {
      forall i | 0 <= i < |cs| && OnSide(cs[i].slot, side)
        ensures MatchingColor(cs[i], SideNormal(side)) == Some(SideColor(side))
      {
        FreshCubieShowsColor(AllSlots[i], side);
      }
    }
    IsSolvedIff(cs);
  }

  lemma FreshCubieShowsColor(s: Slot, side: Side)
    requires OnSide(s, side)
    ensures MatchingColor(CreateCubie(s), SideNormal(side)) == Some(SideColor(side))
  {
    CreatedFacets(s);
    UnturnedShowsColor(CreateCubie(s), side);
  }

  /** An unturned cubie with a facet pointing out of a side, coloured as created, shows that side's colour. */
  lemma UnturnedShowsColor(c: Cubie, side: Side)
    requires c.orient == Identity
    requires forall i, j :: 0 <= i < j < |c.facets| ==> c.facets[i].normal != c.facets[j].normal
    requires ColouredAsCreated(c)
    requires exists i :: 0 <= i < |c.facets| && c.facets[i].normal == SideNormal(side)
    ensures MatchingColor(c, SideNormal(side)) == Some(SideColor(side))
  {
    var n := SideNormal(side);
    var i :| 0 <= i < |c.facets| && c.facets[i].normal == n;
    assert Apply(c.orient, c.facets[i].normal) == n;
    var color := MatchingColor(c, n).value;
    var f :| 0 <= f < |c.facets| && Apply(c.orient, c.facets[f].normal) == n && color == c.facets[f].color;
    assert c.facets[f].normal == n;
  }

  /**
   * A cubie that still carries its creation colours, turned once about an
   * axis, shows a side across that axis some other colour, or none.
   */
  lemma TurnedCubieMismatch(c: Cubie, a: Axis, positive: bool, side: Side)
    requires c.orient == QuarterTurn(a, positive) && ColouredAsCreated(c)
    requires SideNormal(side).axis != a
    ensures MatchingColor(c, SideNormal(side)) != Some(SideColor(side))
  {
    var n := SideNormal(side);
    match MatchingColor(c, n)
    case None =>
    case Some(color) =>
      var f :| 0 <= f < |c.facets| && Apply(c.orient, c.facets[f].normal) == n && color == c.facets[f].color;
      QuarterTurnUndo(a, positive, c.facets[f].normal);
      QuarterTurnUndo(a, !positive, n);
      assert SideFacing(c.facets[f].normal) != side;
  }

  /** A fresh cubie in the turned layer, after the turn: moved, twisted once, colours as created. */
  lemma TurnedFreshCubie(m: MoveSpec, j: nat)
    requires j < 8 && InLayer(AllSlots[j], m.axis, m.layer)
    ensures var c := TurnCubies(FreshCubies(), m)[j];
      && c.slot == SlotTurn(m.axis, Clockwise(m), AllSlots[j])
      && c.orient == QuarterTurn(m.axis, Clockwise(m))
      && ColouredAsCreated(c)
  {
    var q := QuarterTurn(m.axis, Clockwise(m));
    assert Compose(q, Identity) == q;
    CreatedFacets(AllSlots[j]);
  }

  /** One cubie on a side showing anything but the side's colour makes the detector reject the cube. */
  lemma MismatchUnsolves(cs: seq<Cubie>, i: nat, side: Side)
    requires i < |cs| && OnSide(cs[i].slot, side)
    requires MatchingColor(cs[i], SideNormal(side)) != Some(SideColor(side))
    ensures !IsSolved(cs)
  {
    assert !ShowsColor(cs, side);
    SideUniformIff(cs, side);
    SideListed(side);
  }

  /**
   * A cube holding a cubie that carries its creation colours and has been
   * turned once about an axis is rejected: the side across the next axis that
   * the cubie lies on does not see that side's colour from it.
   */
  lemma TurnedCubieUnsolves(cs: seq<Cubie>, j: nat, a: Axis, positive: bool)
    requires j < |cs| && cs[j].orient == QuarterTurn(a, positive) && ColouredAsCreated(cs[j])
    ensures !IsSolved(cs)
  {
    var side := SideAcross(cs[j].slot, a);
    TurnedCubieMismatch(cs[j], a, positive, side);
    MismatchUnsolves(cs, j, side);
  }

  /** The side, across the axis after `a`, that slot `s` lies on. */
  function SideAcross(s: Slot, a: Axis): (side: Side)
    ensures OnSide(s, side) && SideNormal(side).axis == Next(a) != a
  {
    var b := Next(a);
    SideFacing(Dir(b, Coord(s, b) == 1))
  }

  /**
   * Any single turn of a fresh cube leaves it unsolved: a turned cubie that
   * lands on a side across the turn axis faces it with a facet of another
   * colour, or with none.
   */
  lemma SingleTurnUnsolves(m: MoveSpec)
    ensures !IsSolved(TurnCubies(FreshCubies(), m))
  {
    var home := LayerSlots(m.axis, m.layer)[0];
    var j := 4 * home.x + 2 * home.y + home.z;
    assert AllSlots[j] == home;
    TurnedFreshCubie(m, j);
    TurnedCubieUnsolves(TurnCubies(FreshCubies(), m), j, m.axis, Clockwise(m));
  }
}

=== FILE: game.dfy ===
/**
 * The cube game's state and its operations: starting and committing a face
 * turn, returning to the start arrangement, resetting, and the keyboard map.
 * The turn animation is collapsed into the commit step: a started turn is
 * `Turning` until `FinishRotation` applies its whole effect at once.
 */
module CubeGame {
  import opened Options
  import opened Geometry
  import opened Moves
  import opened Cubies
  import opened Detector

  /** Whether a turn is in flight, and which. */
  datatype Phase = Idle | Turning(spec: MoveSpec)

  /**
   * The game object: the cubies, the move counter, the solved flag, the turn
   * in flight (the `isAnimating` flag is "a turn is in flight") and the flag
   * saying the scene was set up.
   */
  datatype GameState = GameState(cubies: seq<Cubie>, moves: nat, isSolved: bool, phase: Phase, isActive: bool)

  predicate IsAnimating(g: GameState)
  {
    g.phase.Turning?
  }

  /** The state the scene setup leaves: fresh cubies, no moves, solved, idle and active. */
  function Fresh(): GameState
  {
    GameState(FreshCubies(), 0, true, Idle, true)
  }

  /**
   * What every set-up game keeps: eight cubies, each with the home slot and
   * facets it was created with, the current slots a permutation of {0,1}³
   * and every orientation one of the 24 rotations.
   */
  ghost predicate WellFormed(cs: seq<Cubie>)
  {
    && |cs| == 8
    && (forall i :: 0 <= i < 8 ==> cs[i].home == AllSlots[i] && cs[i].facets == CreateCubie(AllSlots[i]).facets)
    && IsPermutation(cs)
    && OrientationsValid(cs)
  }

  ghost predicate Valid(g: GameState)
  {
    WellFormed(g.cubies)
  }

  /** When no turn is in flight, the solved flag is the detector's verdict on the cubies. */
  predicate FlagAgrees(g: GameState)
  {
    !IsAnimating(g) ==> g.isSolved == IsSolved(g.cubies)
  }

  lemma FreshIsValid()
    ensures Valid(Fresh()) && FlagAgrees(Fresh())
  {
    FreshIsWellFormed();
    FreshIsSolved();
  }

  /** The created cubies are well formed, each sits at its own home slot and none is turned. */
  lemma FreshIsWellFormed()
    ensures WellFormed(FreshCubies())
    ensures forall i :: 0 <= i < 8 ==> FreshCubies()[i].slot == AllSlots[i] && FreshCubies()[i].orient == Identity
  {
    var cs := FreshCubies();
    FreshIsPermutation();
    assert forall i :: 0 <= i < 8 ==> cs[i] == CreateCubie(AllSlots[i]);
    assert forall i :: 0 <= i < 8 ==> cs[i].orient == Identity;
  }

  /**
   * The synchronous part of a move request: ignored while a turn is in flight
   * or before set-up; otherwise the counter goes up first (for a counted move),
   * then the id is looked up and either the turn starts or, for an unknown
   * id, the in-flight flag is released again.
   */
  function StartMove(g: GameState, id: string, countMove: bool): (r: GameState)
    ensures IsAnimating(g) || !g.isActive ==> r == g
    ensures !IsAnimating(g) && g.isActive ==>
              && r.moves == g.moves + (if countMove then 1 else 0)
              && r.cubies == g.cubies && r.isSolved == g.isSolved && r.isActive
              && (IsAnimating(r) <==> id in MoveIds)
              && (id in MoveIds ==> r.phase == Turning(Lookup(id).value))
  {
    if IsAnimating(g) || !g.isActive then g
    else
      var counted := if countMove then g.moves + 1 else g.moves;
      match Lookup(id)
      case None => g.(moves := counted)
      case Some(spec) => g.(moves := counted, phase := Turning(spec))
  }

  /**
   * The end of a turn: the turned layer's slots and orientations are
   * committed, the in-flight flag is cleared and the detector is re-run.
   */
  function FinishRotation(g: GameState): (r: GameState)
    requires IsAnimating(g)
    ensures !IsAnimating(r) && FlagAgrees(r)
    ensures r.cubies == TurnCubies(g.cubies, g.phase.spec)
    ensures r.moves == g.moves && r.isActive == g.isActive
    ensures Valid(g) ==> Valid(r)
  {
    var spec := g.phase.spec;
    var cubies := TurnCubies(g.cubies, spec);
    TurnKeepsValid(g, spec);
    g.(cubies := cubies, isSolved := IsSolved(cubies), phase := Idle)
  }

  lemma TurnKeepsValid(g: GameState, spec: MoveSpec)
    ensures WellFormed(g.cubies) ==> WellFormed(TurnCubies(g.cubies, spec))
  {
    if WellFormed(g.cubies) {
      TurnKeepsPermutation(g.cubies, spec);
      TurnKeepsOrientationsValid(g.cubies, spec);
    }
  }

  /** A move request together with the end of the turn it starts: its whole settled effect. */
  function PerformMove(g: GameState, id: string, countMove: bool): (r: GameState)
    ensures IsAnimating(g) || !g.isActive ==> r == g
    ensures !IsAnimating(g) && g.isActive ==>
              && !IsAnimating(r) && r.isActive
              && r.moves == g.moves + (if countMove then 1 else 0)
              && (id !in MoveIds ==> r.cubies == g.cubies && r.isSolved == g.isSolved)
              && (id in MoveIds ==> r.cubies == TurnCubies(g.cubies, Lookup(id).value))
    ensures Valid(g) ==> Valid(r)
    ensures FlagAgrees(g) ==> FlagAgrees(r)
    ensures !IsAnimating(g) && g.isActive && id in MoveIds ==> FlagAgrees(r)
  {
    if IsAnimating(g) then g
    else
      var started := StartMove(g, id, countMove);
      assert started.cubies == g.cubies;
      if IsAnimating(started) then FinishRotation(started) else started
  }

  /** A primed move right after its unprimed one, or the other way round, restores every cubie. */
  lemma MoveThenPrime(g: GameState, f: string, countMove: bool)
    requires f in Faces && !IsAnimating(g) && g.isActive
    ensures var r := PerformMove(PerformMove(g, f, countMove), f + "'", countMove);
      && r.cubies == g.cubies
      && r.moves == g.moves + (if countMove then 2 else 0)
      && r.isSolved == IsSolved(g.cubies)
    ensures var r := PerformMove(PerformMove(g, f + "'", countMove), f, countMove);
      && r.cubies == g.cubies
      && r.moves == g.moves + (if countMove then 2 else 0)
      && r.isSolved == IsSolved(g.cubies)
  {
    PrimeReverses(f);
    var spec := Lookup(f).value;
    TurnThenReverse(g.cubies, spec);
    TurnThenReverse(g.cubies, Reverse(spec));
    assert Reverse(Reverse(spec)) == spec;
  }

  /** The same move four times restores every cubie. */
  lemma MoveFourTimes(g: GameState, id: string, countMove: bool)
    requires id in MoveIds && !IsAnimating(g) && g.isActive
    ensures var r := PerformMove(PerformMove(PerformMove(PerformMove(g, id, countMove), id, countMove), id, countMove), id, countMove);
      && r.cubies == g.cubies
      && r.moves == g.moves + (if countMove then 4 else 0)
      && r.isSolved == IsSolved(g.cubies)
  {
    TurnFourTimes(g.cubies, Lookup(id).value);
  }

  /** One counted move from a fresh game: one move on the counter and the detector reports unsolved. */
  lemma FirstMoveFromFresh(id: string)
    requires id in MoveIds
    ensures var r := PerformMove(Fresh(), id, true);
      r.moves == 1 && !r.isSolved && Valid(r)
  {
    SingleTurnUnsolves(Lookup(id).value);
    FreshIsValid();
  }

  /**
   * Every cubie put back at its home slot with the identity orientation: for
   * well-formed cubies, exactly the cubies the scene setup creates.
   */
  function HomeCubies(cs: seq<Cubie>): (r: seq<Cubie>)
    ensures |r| == |cs|
    ensures forall i :: 0 <= i < |r| ==>
              && r[i].slot == cs[i].home && r[i].home == cs[i].home
              && r[i].orient == Identity && r[i].facets == cs[i].facets
    ensures WellFormed(cs) ==> r == FreshCubies()
  {
    HomeOfWellFormed(cs);
    seq(|cs|, i requires 0 <= i < |cs| => cs[i].(slot := cs[i].home, orient := Identity))
  }

  /** A well-formed cubie sent home with no turn is the cubie created for its slot. */
  lemma HomeOfWellFormed(cs: seq<Cubie>)
    ensures WellFormed(cs) ==>
              && |cs| == |FreshCubies()|
              && forall i :: 0 <= i < |cs| ==> cs[i].(slot := cs[i].home, orient := Identity) == FreshCubies()[i]
  {
    if WellFormed(cs) {
      FreshIsWellFormed();
    }
  }

  /** Sending well-formed cubies home rebuilds exactly the fresh cubies, which the detector accepts. */
  lemma HomeIsFresh(cs: seq<Cubie>)
    requires WellFormed(cs)
    ensures HomeCubies(cs) == FreshCubies()
    ensures WellFormed(HomeCubies(cs)) && IsSolved(HomeCubies(cs))
  {
    assert HomeCubies(cs) == FreshCubies();
    FreshIsValid();
  }

  /**
   * Return to the start arrangement: ignored while a turn is in flight or
   * when already solved; otherwise every cubie goes back to its home slot
   * with the identity orientation, the counter is cleared and the game is
   * marked solved.
   */
  function SolveCube(g: GameState): (r: GameState)
    ensures IsAnimating(g) || g.isSolved ==> r == g
    ensures !IsAnimating(g) && !g.isSolved ==>
              && r.cubies == HomeCubies(g.cubies)
              && r.moves == 0 && r.isSolved && !IsAnimating(r) && r.isActive == g.isActive
    ensures Valid(g) && !IsAnimating(g) && !g.isSolved ==>
              r.cubies == FreshCubies() && Valid(r) && FlagAgrees(r)
  {
    if IsAnimating(g) || g.isSolved then g
    else
      FreshIsValid();
      GameState(HomeCubies(g.cubies), 0, true, Idle, g.isActive)
  }

  /**
   * Return to the start keeps a game well formed. When it acts it leaves the
   * solved flag agreeing with the detector, whatever the flag said before (a
   * shuffle can leave a solved arrangement flagged unsolved); when it is
   * ignored an agreeing flag stays agreeing.
   */
  lemma SolveKeepsValid(g: GameState)
    requires Valid(g)
    ensures Valid(SolveCube(g))
    ensures !IsAnimating(g) && !g.isSolved ==> FlagAgrees(SolveCube(g)) && IsSolved(SolveCube(g).cubies)
    ensures FlagAgrees(g) ==> FlagAgrees(SolveCube(g))
  {
    if !IsAnimating(g) && !g.isSolved {
      HomeIsFresh(g.cubies);
    }
  }

  /** A second return to the start right after the first changes nothing. */
  lemma SolveTwice(g: GameState)
    ensures SolveCube(SolveCube(g)) == SolveCube(g)
  {
  }

  /** Reset: ignored while a turn is in flight; otherwise the scene is rebuilt from scratch. */
  function ResetCube(g: GameState): (r: GameState)
    ensures IsAnimating(g) ==> r == g
    ensures !IsAnimating(g) ==> r.cubies == FreshCubies() && r.moves == 0 && r.isSolved && r.isActive
    ensures !IsAnimating(g) ==> Valid(r) && FlagAgrees(r)
    ensures !IsAnimating(g) ==> r == Fresh()
  {
    if IsAnimating(g) then g
    else
      FreshIsValid();
      Fresh()
  }

  // ---------------------------------------------------------------------------
  // Keyboard.

  /** ASCII upper-casing of one character: a lower-case letter becomes its capital, anything else stays. */
  function UpperChar(c: char): (r: char)
    ensures !('a' <= r <= 'z')
    ensures r == c <==> !('a' <= c <= 'z')
    ensures 'a' <= c <= 'z' ==> 'A' <= r <= 'Z' && r as int - 'A' as int == c as int - 'a' as int
  {
    if 'a' <= c <= 'z' then (c as int - 32) as char else c
  }

  /** A key name upper-cased character by character: no lower-case letter is left. */
  function Upper(s: string): (u: string)
    ensures |u| == |s|
    ensures forall i :: 0 <= i < |s| ==> u[i] == UpperChar(s[i]) && !('a' <= u[i] <= 'z')
  {
    seq(|s|, i requires 0 <= i < |s| => UpperChar(s[i]))
  }

  /** The key map: a face letter in either case, primed when Shift is held. */
  function KeyToMove(key: string, shift: bool): (r: Option<string>)
    ensures r.Some? <==> Upper(key) in Faces
    ensures r.Some? ==> r.value in MoveIds && r.value == Upper(key) + (if shift then "'" else "")
  {
    var k := Upper(key);
    if k in Faces then
      PrimeReverses(k);
      Some(if shift then k + "'" else k) else None
  }

  /** The key handler: ignored while a turn is in flight or before set-up, and for keys outside the map. */
  function OnKeyDown(g: GameState, key: string, shift: bool): (r: GameState)
    ensures IsAnimating(g) || !g.isActive || KeyToMove(key, shift).None? ==> r == g
    ensures !IsAnimating(g) && g.isActive && KeyToMove(key, shift).Some? ==>
              && r.moves == g.moves + 1 && IsAnimating(r) && r.cubies == g.cubies
              && r.phase == Turning(Lookup(KeyToMove(key, shift).value).value)
              && r.isSolved == g.isSolved && r.isActive == g.isActive
  {
    if IsAnimating(g) || !g.isActive then g
    else
      match KeyToMove(key, shift)
      case None => g
      case Some(id) => StartMove(g, id, true)
  }

  /** Upper-casing an upper-cased key changes nothing. */
  lemma UpperTwice(s: string)
    ensures Upper(Upper(s)) == Upper(s)
  {
    assert forall i :: 0 <= i < |s| ==> Upper(Upper(s))[i] == UpperChar(UpperChar(s[i])) == UpperChar(s[i]);
  }

  /**
   * Lower- and upper-case letters name the same move and Shift selects the
   * primed move: the map sees a key only through its upper-case form, takes
   * exactly the six face letters in either case, and no longer key name.
   */
  lemma KeyCaseInsensitive(key: string, shift: bool)
    ensures KeyToMove(key, shift) == KeyToMove(Upper(key), shift)
    ensures |key| != 1 ==> KeyToMove(key, shift) == None
    ensures |key| == 1 ==> (KeyToMove(key, shift).Some? <==> key[0] in "udlrfbUDLRFB")
    ensures KeyToMove(key, true).Some? ==> KeyToMove(key, true) == Some(KeyToMove(key, false).value + "'")
  {
    UpperTwice(key);
    if |key| == 1 {
      assert Upper(key) == [UpperChar(key[0])];
    }
  }
}

=== FILE: geometry.dfy ===
/**
 * Integer geometry of the 2×2×2 cube: slot coordinates in {0,1}, the six signed
 * unit axis directions, and rotations as signed permutation matrices.
 *
 * The cube game accumulates each cubie's orientation as a product of ±90°
 * axis quaternions. Every such product is one of the 24 rotations of the cube,
 * a 3×3 integer matrix whose columns are signed unit axis vectors. The model
 * stores a rotation by those three columns, so applying it to a facet normal
 * is exact and the game's 0.1 tolerance becomes plain equality.
 */
module Geometry {

  /** One coordinate of a slot: the game only ever stores 0 or 1. */
  type Bit = b: int | 0 <= b <= 1

  datatype Axis = X | Y | Z

  /** The integer position of a cubie in the 2×2×2 grid. */
  datatype Slot = Slot(x: Bit, y: Bit, z: Bit)

  function Coord(s: Slot, a: Axis): Bit
  {
    match a
    case X => s.x
    case Y => s.y
    case Z => s.z
  }

  /** The eight slots in the order the scene setup creates cubies (x, then y, then z). */
  const AllSlots: seq<Slot> := [
    Slot(0, 0, 0), Slot(0, 0, 1), Slot(0, 1, 0), Slot(0, 1, 1),
    Slot(1, 0, 0), Slot(1, 0, 1), Slot(1, 1, 0), Slot(1, 1, 1)
  ]

  lemma AllSlotsComplete(s: Slot)
    ensures s in AllSlots
  {
  }

  /** A signed unit vector along one axis. */
  datatype Dir = Dir(axis: Axis, positive: bool)

  const PX := Dir(X, true)
  const NX := Dir(X, false)
  const PY := Dir(Y, true)
  const NY := Dir(Y, false)
  const PZ := Dir(Z, true)
  const NZ := Dir(Z, false)

  function Neg(d: Dir): Dir
  {
    d.(positive := !d.positive)
  }

  /** The axis after `a` in the right-handed cycle X → Y → Z → X. */
  function Next(a: Axis): Axis
  {
    match a
    case X => Y
    case Y => Z
    case Z => X
  }

  /** The cross product of two perpendicular unit axis vectors. */
  function Cross(a: Dir, b: Dir): (c: Dir)
    requires a.axis != b.axis
    ensures c.axis != a.axis && c.axis != b.axis
    ensures ToVec(c) == CrossVec(ToVec(a), ToVec(b))
  {
    var third := if Next(a.axis) == b.axis then Next(b.axis) else Next(a.axis);
    Dir(third, (a.positive == b.positive) == (Next(a.axis) == b.axis))
  }

  /**
   * A rotation of the cube, stored as the images of the basis vectors
   * e_x, e_y, e_z: the three columns of its integer matrix.
   */
  datatype Rotation = Rotation(ex: Dir, ey: Dir, ez: Dir)

  const Identity: Rotation := Rotation(PX, PY, PZ)

  /** The columns are a right-handed frame: a signed permutation matrix with determinant 1. */
  predicate IsRotation(r: Rotation)
  {
    && r.ex.axis != r.ey.axis
    && Cross(r.ex, r.ey) == r.ez
  }

  /** The image of a unit axis vector under a rotation (matrix times vector). */
  function Apply(r: Rotation, d: Dir): Dir
  {
    var column := match d.axis
      case X => r.ex
      case Y => r.ey
      case Z => r.ez;
    if d.positive then column else Neg(column)
  }

  /** `Compose(q, r)` rotates by `r` first and then by `q` (the matrix product q·r). */
  function Compose(q: Rotation, r: Rotation): (qr: Rotation)
    ensures forall d :: Apply(qr, d) == Apply(q, Apply(r, d))
  {
    Rotation(Apply(q, r.ex), Apply(q, r.ey), Apply(q, r.ez))
  }

  /**
   * The rotation by +90° (`positive`) or −90° about the unit vector of `a`,
   * right-handed, which is what an axis–angle quaternion of that angle does.
   */
  function QuarterTurn(a: Axis, positive: bool): (q: Rotation)
    ensures IsRotation(q)
    ensures Apply(q, Dir(a, true)) == Dir(a, true)
  {
    match a
    case X => if positive then Rotation(PX, PZ, NY) else Rotation(PX, NZ, PY)
    case Y => if positive then Rotation(NZ, PY, PX) else Rotation(PZ, PY, NX)
    case Z => if positive then Rotation(PY, NX, PZ) else Rotation(NY, PX, PZ)
  }

  /** The 24 rotations of the cube, listed by the image of e_x and then of e_y. */
  const AllRotations: seq<Rotation> := [
    Rotation(PX, PY, PZ), Rotation(PX, NY, NZ), Rotation(PX, PZ, NY), Rotation(PX, NZ, PY),
    Rotation(NX, PY, NZ), Rotation(NX, NY, PZ), Rotation(NX, PZ, PY), Rotation(NX, NZ, NY),
    Rotation(PY, PX, NZ), Rotation(PY, NX, PZ), Rotation(PY, PZ, PX), Rotation(PY, NZ, NX),
    Rotation(NY, PX, PZ), Rotation(NY, NX, NZ), Rotation(NY, PZ, NX), Rotation(NY, NZ, PX),
    Rotation(PZ, PX, PY), Rotation(PZ, NX, NY), Rotation(PZ, PY, NX), Rotation(PZ, NY, PX),
    Rotation(NZ, PX, NY), Rotation(NZ, NX, PY), Rotation(NZ, PY, PX), Rotation(NZ, NY, NX)
  ]

  /** A rotation in the model's sense is exactly one of the 24 listed, and they are all different. */
  lemma RotationsAreTheTwentyFour(r: Rotation)
    ensures IsRotation(r) <==> r in AllRotations
    ensures |AllRotations| == 24
    ensures forall i, j :: 0 <= i < j < |AllRotations| ==> AllRotations[i] != AllRotations[j]
  {
    if IsRotation(r) {
      RotationIsListed(r);
    }
    if r in AllRotations {
      ListedAreRotations();
    }
    RotationsDistinct();
  }

  lemma ListedAreRotations()
    ensures forall i :: 0 <= i < |AllRotations| ==> IsRotation(AllRotations[i])
  {
    ListedAreRotationsBelow12();
    ListedAreRotationsFrom12();
  }

  lemma ListedAreRotationsBelow12()
    ensures forall i :: 0 <= i < 12 ==> IsRotation(AllRotations[i])
  {
  }

  lemma ListedAreRotationsFrom12()
    ensures forall i :: 12 <= i < 24 ==> IsRotation(AllRotations[i])
  {
  }

  lemma RotationIsListed(r: Rotation)
    requires IsRotation(r)
    ensures r in AllRotations
  {
  }

  lemma RotationsDistinct()
    ensures forall i, j :: 0 <= i < j < |AllRotations| ==> AllRotations[i] != AllRotations[j]
  {
  }

  lemma CrossAntisymmetric(a: Dir, b: Dir)
    requires a.axis != b.axis
    ensures Cross(b, a) == Neg(Cross(a, b))
  {
  }

  lemma CrossNeg(a: Dir, b: Dir)
    requires a.axis != b.axis
    ensures Cross(Neg(a), b) == Neg(Cross(a, b)) && Cross(a, Neg(b)) == Neg(Cross(a, b))
  {
  }

  /** In a right-handed frame (a, b, a × b) the cross products go round cyclically. */
  lemma CrossCycle(a: Dir, b: Dir)
    requires a.axis != b.axis
    ensures Cross(b, Cross(a, b)) == a && Cross(Cross(a, b), a) == b
  {
  }

  /** A rotation maps the positive unit vectors of two different axes to their cross product's image. */
  lemma ApplyKeepsCrossOfBasis(q: Rotation, a: Axis, b: Axis)
    requires IsRotation(q) && a != b
    ensures Apply(q, Dir(a, true)).axis != Apply(q, Dir(b, true)).axis
    ensures Cross(Apply(q, Dir(a, true)), Apply(q, Dir(b, true))) == Apply(q, Cross(Dir(a, true), Dir(b, true)))
  {
    CrossCycle(q.ex, q.ey);
    CrossAntisymmetric(q.ex, q.ey);
    CrossAntisymmetric(q.ey, q.ez);
    CrossAntisymmetric(q.ez, q.ex);
  }

  lemma ApplyNeg(q: Rotation, d: Dir)
    ensures Apply(q, Neg(d)) == Neg(Apply(q, d))
  {
  }

  /** A rotation preserves cross products. */
  lemma ApplyKeepsCross(q: Rotation, a: Dir, b: Dir)
    requires IsRotation(q) && a.axis != b.axis
    ensures Apply(q, a).axis != Apply(q, b).axis
    ensures Cross(Apply(q, a), Apply(q, b)) == Apply(q, Cross(a, b))
  {
    var a1 := Dir(a.axis, true);
    var b1 := Dir(b.axis, true);
    var qa, qb := Apply(q, a1), Apply(q, b1);
    ApplyKeepsCrossOfBasis(q, a.axis, b.axis);
    var c := Cross(a1, b1);
    assert Cross(qa, qb) == Apply(q, c);
    ApplyNeg(q, c);
    if !a.positive {
      assert a == Neg(a1);
      ApplyNeg(q, a1);
      CrossNeg(a1, b1);
      CrossNeg(qa, qb);
      if !b.positive {
        assert b == Neg(b1);
        ApplyNeg(q, b1);
        CrossNeg(Neg(a1), b1);
        CrossNeg(Neg(qa), qb);
      }
    } else if !b.positive {
      assert a == a1 && b == Neg(b1);
      ApplyNeg(q, b1);
      CrossNeg(a1, b1);
      CrossNeg(qa, qb);
    }
  }

  /** Composing two rotations yields a rotation, so accumulated orientations stay in the 24. */
  lemma ComposeIsRotation(q: Rotation, r: Rotation)
    requires IsRotation(q) && IsRotation(r)
    ensures IsRotation(Compose(q, r))
  {
    ApplyKeepsCross(q, r.ex, r.ey);
  }

  /** Turning about an axis one way and then the other way restores any orientation. */
  lemma QuarterTurnInverse(a: Axis, positive: bool, o: Rotation)
    ensures Compose(QuarterTurn(a, !positive), Compose(QuarterTurn(a, positive), o)) == o
  {
    QuarterTurnUndo(a, positive, o.ex);
    QuarterTurnUndo(a, positive, o.ey);
    QuarterTurnUndo(a, positive, o.ez);
  }

  /** Turning a direction about an axis and back restores it; a direction off the axis does move. */
  lemma QuarterTurnUndo(a: Axis, positive: bool, d: Dir)
    ensures Apply(QuarterTurn(a, !positive), Apply(QuarterTurn(a, positive), d)) == d
    ensures d.axis != a ==> Apply(QuarterTurn(a, positive), d) != d
  {
  }

  /** Four quarter turns the same way about one axis restore any orientation. */
  lemma QuarterTurnFour(a: Axis, positive: bool, o: Rotation)
    ensures var q := QuarterTurn(a, positive);
            Compose(q, Compose(q, Compose(q, Compose(q, o)))) == o
  {
    QuarterTurnFourOnDir(a, positive, o.ex);
    QuarterTurnFourOnDir(a, positive, o.ey);
    QuarterTurnFourOnDir(a, positive, o.ez);
  }

  lemma QuarterTurnFourOnDir(a: Axis, positive: bool, d: Dir)
    ensures var q := QuarterTurn(a, positive);
            Apply(q, Apply(q, Apply(q, Apply(q, d)))) == d
  {
  }

  // ---------------------------------------------------------------------------
  // Integer vectors, to compare the discrete model against the rotation formula.

  datatype Vec = Vec(x: int, y: int, z: int)

  function ToVec(d: Dir): Vec
  {
    var s := if d.positive then 1 else -1;
    match d.axis
    case X => Vec(s, 0, 0)
    case Y => Vec(0, s, 0)
    case Z => Vec(0, 0, s)
  }

  function Dot(u: Vec, v: Vec): int
  {
    u.x * v.x + u.y * v.y + u.z * v.z
  }

  function CrossVec(u: Vec, v: Vec): Vec
  {
    Vec(u.y * v.z - u.z * v.y, u.z * v.x - u.x * v.z, u.x * v.y - u.y * v.x)
  }

  /**
   * Rodrigues' formula for a rotation by ±90° about the unit vector k of axis `a`:
   * v' = k (k·v) ± k × v. Applying the quaternion built by setFromAxisAngle with
   * angle ±π/2 to a vector computes exactly this.
   */
  function AxisAngle(a: Axis, positive: bool, v: Vec): Vec
  {
    var k := ToVec(Dir(a, true));
    var along := Dot(k, v);
    var turn := CrossVec(k, v);
    var s := if positive then 1 else -1;
    Vec(k.x * along + s * turn.x, k.y * along + s * turn.y, k.z * along + s * turn.z)
  }

  /** A ±90° turn about a coordinate axis in closed form: a signed swap of the two other coordinates. */
  function Turn90(a: Axis, positive: bool, v: Vec): Vec
  {
    match a
    case X => if positive then Vec(v.x, -v.z, v.y) else Vec(v.x, v.z, -v.y)
    case Y => if positive then Vec(v.z, v.y, -v.x) else Vec(-v.z, v.y, v.x)
    case Z => if positive then Vec(-v.y, v.x, v.z) else Vec(v.y, -v.x, v.z)
  }

  /** Rodrigues' formula worked out per axis is the closed-form turn. */
  lemma AxisAngleByAxis(a: Axis, positive: bool, v: Vec)
    ensures AxisAngle(a, positive, v) == Turn90(a, positive, v)
  {
    var s := if positive then 1 else -1;
    match a
    case X =>
      assert Dot(Vec(1, 0, 0), v) == v.x && CrossVec(Vec(1, 0, 0), v) == Vec(0, -v.z, v.y);
      assert AxisAngle(a, positive, v) == Vec(v.x, s * -v.z, s * v.y);
    case Y =>
      assert Dot(Vec(0, 1, 0), v) == v.y && CrossVec(Vec(0, 1, 0), v) == Vec(v.z, 0, -v.x);
      assert AxisAngle(a, positive, v) == Vec(s * v.z, v.y, s * -v.x);
    case Z =>
      assert Dot(Vec(0, 0, 1), v) == v.z && CrossVec(Vec(0, 0, 1), v) == Vec(-v.y, v.x, 0);
      assert AxisAngle(a, positive, v) == Vec(s * -v.y, s * v.x, v.z);
  }

  /** The discrete quarter turn moves every unit direction as the closed-form turn does. */
  lemma QuarterTurnIsTurn90(a: Axis, positive: bool, d: Dir)
    ensures ToVec(Apply(QuarterTurn(a, positive), d)) == Turn90(a, positive, ToVec(d))
  {
  }

  /** The discrete quarter turn agrees with the axis–angle formula on every unit direction. */
  lemma QuarterTurnIsAxisAngle(a: Axis, positive: bool, d: Dir)
    ensures ToVec(Apply(QuarterTurn(a, positive), d)) == AxisAngle(a, positive, ToVec(d))
  {
    QuarterTurnIsTurn90(a, positive, d);
    AxisAngleByAxis(a, positive, ToVec(d));
  }

  /**
   * The centre of a slot relative to the cube centre, doubled so that it stays
   * integral: slot coordinate c becomes 2c − 1 ∈ {−1, 1}.
   */
  function Centre(s: Slot): (v: Vec)
    ensures v.x in {-1, 1} && v.y in {-1, 1} && v.z in {-1, 1}
  {
    Vec(2 * s.x - 1, 2 * s.y - 1, 2 * s.z - 1)
  }
}

=== FILE: grid.dfy ===
/**
 * The grid background: the previous lines are discarded, then vertical
 * lines are laid every 50 pixels from 0 while below the window width,
 * followed by horizontal lines every 50 pixels while below its height.
 * Window sizes are the browser's integer pixel counts.
 */
module Grid {
  const GridSize: nat := 50

  datatype Line = Vertical(left: int) | Horizontal(top: int)

  /** How many multiples of 50, from 0, lie strictly below `extent`. */
  function LineCount(extent: int): nat
  {
    if extent <= 0 then 0 else (extent + GridSize - 1) / GridSize
  }

  /** The count is the ceiling of extent/50: the last line is below the extent and the next would not be. */
  lemma LineCountIsCeiling(extent: int)
    ensures extent <= 0 ==> LineCount(extent) == 0
    ensures extent > 0 ==> (LineCount(extent) - 1) * GridSize < extent <= LineCount(extent) * GridSize
  {
  }

  /** The layout for a width × height window: all verticals, left to right, then all horizontals, top to bottom. */
  function Layout(width: int, height: int): seq<Line>
  {
    seq(LineCount(width), i => Vertical(i * GridSize)) + seq(LineCount(height), i => Horizontal(i * GridSize))
  }

  /**
   * The layout holds a vertical line at every multiple of 50 in [0, width)
   * and a horizontal one at every multiple of 50 in [0, height), and
   * nothing else; every vertical line comes before every horizontal one.
   */
  lemma LayoutPlacesEveryLine(width: int, height: int)
    ensures forall x :: Vertical(x) in Layout(width, height) <==> 0 <= x < width && x % GridSize == 0
    ensures forall y :: Horizontal(y) in Layout(width, height) <==> 0 <= y < height && y % GridSize == 0
    ensures forall i, j :: 0 <= i < j < |Layout(width, height)| && Layout(width, height)[j].Vertical? ==>
              Layout(width, height)[i].Vertical?
  {
    var lines := Layout(width, height);
    var v := LineCount(width);
    LineCountIsCeiling(width);
    LineCountIsCeiling(height);
    forall x ensures Vertical(x) in lines <==> 0 <= x < width && x % GridSize == 0 {
      if 0 <= x < width && x % GridSize == 0 {
        var i := x / GridSize;
        assert i < v;
        assert lines[i] == Vertical(x);
      }
    }
    forall y ensures Horizontal(y) in lines <==> 0 <= y < height && y % GridSize == 0 {
      if 0 <= y < height && y % GridSize == 0 {
        var i := y / GridSize;
        assert i < LineCount(height);
        assert lines[v + i] == Horizontal(y);
      }
    }
  }

  /**
   * The grid as the page draws it: whatever lines were there before are
   * dropped, then two counting loops lay the lines.
   */
  method CreateGrid(previous: seq<Line>, width: int, height: int) returns (lines: seq<Line>)
    ensures lines == Layout(width, height)
    ensures |lines| == LineCount(width) + LineCount(height)
  {
    lines := [];
    var x := 0;
    while x < width
      invariant x == |lines| * GridSize
      invariant |lines| <= LineCount(width)
      invariant lines == seq(|lines|, i => Vertical(i * GridSize))
      decreases width - x
    {
      lines := lines + [Vertical(x)];
      x := x + GridSize;
    }
    LineCountIsCeiling(width);
    var verticals := |lines|;
    assert verticals == LineCount(width);
    var y := 0;
    while y < height
      invariant y == (|lines| - verticals) * GridSize
      invariant verticals <= |lines| <= verticals + LineCount(height)
      invariant lines[..verticals] == seq(LineCount(width), i => Vertical(i * GridSize))
      invariant lines[verticals..] == seq(|lines| - verticals, i => Horizontal(i * GridSize))
      decreases height - y
    {
      lines := lines + [Horizontal(y)];
      y := y + GridSize;
    }
    LineCountIsCeiling(height);
    assert lines == lines[..verticals] + lines[verticals..];
  }
}

=== FILE: moves.dfy ===
/**
 * The move table of the cube game and the integer slot update of a face turn.
 *
 * A move id names an axis, a layer on that axis and a signed quarter-turn
 * angle. The slot update is the integer 4-cycle the game applies to the
 * `currentPosition` of every cubie in the turned layer.
 */
module Moves {
  import opened Options
  import opened Geometry

  /**
   * One entry of the move table. The angle is `quarter` times π/2; the table
   * only holds −1 and +1.
   */
  datatype MoveSpec = MoveSpec(axis: Axis, layer: Bit, quarter: int)

  /** The twelve move ids, in the order the shuffle draws from. */
  const MoveIds: seq<string> := ["U", "U'", "D", "D'", "L", "L'", "R", "R'", "F", "F'", "B", "B'"]

  /** The six unprimed ids; each has a primed counterpart. */
  const Faces: seq<string> := ["U", "D", "L", "R", "F", "B"]

  /** The move table; an id outside it yields `None`, as the source's object lookup yields `undefined`. */
  function Lookup(id: string): (r: Option<MoveSpec>)
    ensures r.Some? <==> id in MoveIds
    ensures r.Some? ==> r.value.quarter == 1 || r.value.quarter == -1
  {
    if id == "U" then Some(MoveSpec(Y, 1, -1))
    else if id == "D" then Some(MoveSpec(Y, 0, 1))
    else if id == "L" then Some(MoveSpec(X, 0, -1))
    else if id == "R" then Some(MoveSpec(X, 1, 1))
    else if id == "F" then Some(MoveSpec(Z, 1, -1))
    else if id == "B" then Some(MoveSpec(Z, 0, 1))
    else if id == "U'" then Some(MoveSpec(Y, 1, 1))
    else if id == "D'" then Some(MoveSpec(Y, 0, -1))
    else if id == "L'" then Some(MoveSpec(X, 0, 1))
    else if id == "R'" then Some(MoveSpec(X, 1, -1))
    else if id == "F'" then Some(MoveSpec(Z, 1, 1))
    else if id == "B'" then Some(MoveSpec(Z, 0, -1))
    else None
  }

  /** The direction flag handed to the commit step: exactly "the angle is positive". */
  function Clockwise(m: MoveSpec): bool
  {
    m.quarter > 0
  }

  /**
   * The same turn the other way round: the same layer, the opposite sense,
   * and its slot update undoes the original's.
   */
  function Reverse(m: MoveSpec): (r: MoveSpec)
    ensures r.axis == m.axis && r.layer == m.layer && r.quarter == -m.quarter
    ensures m.quarter != 0 ==> Clockwise(r) == !Clockwise(m)
    ensures m.quarter != 0 ==> forall p :: SlotTurn(r.axis, Clockwise(r), SlotTurn(m.axis, Clockwise(m), p)) == p
  {
    m.(quarter := -m.quarter)
  }

  /**
   * Priming a face id keeps its axis and layer and flips the sign of the angle,
   * so the primed move turns the other way.
   */
  lemma PrimeReverses(f: string)
    requires f in Faces
    ensures f in MoveIds && f + "'" in MoveIds
    ensures Lookup(f + "'") == Some(Reverse(Lookup(f).value))
    ensures Clockwise(Lookup(f + "'").value) == !Clockwise(Lookup(f).value)
  {
    var i :| 0 <= i < |Faces| && Faces[i] == f;
    assert MoveIds[2 * i] == Faces[i];
    assert MoveIds[2 * i + 1] == Faces[i] + "'";
  }

  /** Layer membership: the slot's coordinate on the axis equals the layer, by exact integer equality. */
  predicate InLayer(s: Slot, a: Axis, layer: Bit)
  {
    Coord(s, a) == layer
  }

  /** The four slots of a layer. */
  function LayerSlots(a: Axis, layer: Bit): (r: seq<Slot>)
    ensures |r| == 4
    ensures forall i, j :: 0 <= i < j < 4 ==> r[i] != r[j]
    ensures forall s :: s in r <==> InLayer(s, a, layer)
  {
    match a
    case X => [Slot(layer, 0, 0), Slot(layer, 0, 1), Slot(layer, 1, 0), Slot(layer, 1, 1)]
    case Y => [Slot(0, layer, 0), Slot(0, layer, 1), Slot(1, layer, 0), Slot(1, layer, 1)]
    case Z => [Slot(0, 0, layer), Slot(0, 1, layer), Slot(1, 0, layer), Slot(1, 1, layer)]
  }

  /** The integer position update of a turned cubie, formula for formula as the game writes it. */
  function SlotTurn(a: Axis, clockwise: bool, p: Slot): (r: Slot)
    ensures Coord(r, a) == Coord(p, a)
    ensures r != p
  {
    match a
    case X => if clockwise then Slot(p.x, p.z, 1 - p.y) else Slot(p.x, 1 - p.z, p.y)
    case Y => if clockwise then Slot(1 - p.z, p.y, p.x) else Slot(p.z, p.y, 1 - p.x)
    case Z => if clockwise then Slot(1 - p.y, p.x, p.z) else Slot(p.y, 1 - p.x, p.z)
  }

  /** A turn keeps the coordinate on its own axis, so it maps a layer onto itself. */
  lemma SlotTurnKeepsLayer(a: Axis, clockwise: bool, p: Slot)
    ensures Coord(SlotTurn(a, clockwise, p), a) == Coord(p, a)
  {
  }

  /** The clockwise and counter-clockwise formulas on an axis undo each other, either way round. */
  lemma SlotTurnInverse(a: Axis, clockwise: bool, p: Slot)
    ensures SlotTurn(a, !clockwise, SlotTurn(a, clockwise, p)) == p
    ensures SlotTurn(a, clockwise, SlotTurn(a, !clockwise, p)) == p
  {
  }

  /** Each formula is a 4-cycle: no slot comes back after one or two turns, every slot after four. */
  lemma SlotTurnIsFourCycle(a: Axis, clockwise: bool, p: Slot)
    ensures SlotTurn(a, clockwise, p) != p
    ensures SlotTurn(a, clockwise, SlotTurn(a, clockwise, p)) != p
    ensures SlotTurn(a, clockwise, SlotTurn(a, clockwise, SlotTurn(a, clockwise, SlotTurn(a, clockwise, p)))) == p
  {
  }

  /**
   * About z the slot formula moves the cubie's centre by the same rotation the
   * game composes into its orientation (+90° when clockwise).
   */
  lemma SlotTurnAgreesAboutZ(clockwise: bool, p: Slot)
    ensures Centre(SlotTurn(Z, clockwise, p)) == Turn90(Z, clockwise, Centre(p))
  {
  }

  /**
   * About x and y the slot formula moves the cubie's centre by the opposite
   * rotation to the one composed into its orientation, and never by that one.
   */
  lemma SlotTurnOpposesAboutXAndY(a: Axis, clockwise: bool, p: Slot)
    requires a != Z
    ensures Centre(SlotTurn(a, clockwise, p)) == Turn90(a, !clockwise, Centre(p))
    ensures Centre(SlotTurn(a, clockwise, p)) != Turn90(a, clockwise, Centre(p))
  {
  }
}

=== FILE: navigation.dfy ===
/**
 * Keyboard navigation between the site's pages: the current page is the
 * last segment of the location's path, looked up in a fixed five-page list;
 * the right arrow goes to the next page and the left arrow to the previous
 * one. Only the choice of target page is modelled, not the assignment to the
 * browser's location.
 */
module Navigation {
  import opened Options

  const Pages: seq<string> := ["index.html", "silence.html", "emptiness.html", "stillness.html", "end.html"]

  /** The text after the last '/' of `path` (all of it when there is none). */
  function LastSegment(path: string): (r: string)
    ensures '/' !in r
    ensures |r| <= |path| && r == path[|path| - |r|..]
    ensures |r| < |path| ==> path[|path| - |r| - 1] == '/'
  {
    if path == [] then []
    else if path[|path| - 1] == '/' then []
    else LastSegment(path[..|path| - 1]) + [path[|path| - 1]]
  }

  /** The first position of `x` in `xs`, or -1 when it is absent. */
  function IndexOf<T(==)>(xs: seq<T>, x: T): (r: int)
    ensures -1 <= r < |xs|
    ensures r == -1 <==> x !in xs
    ensures 0 <= r ==> xs[r] == x && forall j :: 0 <= j < r ==> xs[j] != x
  {
    if xs == [] then -1
    else if xs[0] == x then 0
    else
      var i := IndexOf(xs[1..], x);
      if i == -1 then -1 else i + 1
  }

  /** The page a key press on `path` goes to, if any. */
  function Target(path: string, key: string): (r: Option<string>)
    ensures r.Some? ==> r.value in Pages
    ensures r.Some? ==> key == "ArrowRight" || key == "ArrowLeft"
  {
    Neighbour(IndexOf(Pages, LastSegment(path)), key)
  }

  /** The page an arrow key selects from position i of the list (-1 for an unlisted page). */
  function Neighbour(i: int, key: string): (r: Option<string>)
    requires -1 <= i < |Pages|
    ensures r.Some? ==> r.value in Pages
    ensures r.Some? ==> key == "ArrowRight" || key == "ArrowLeft"
  {
    if key == "ArrowRight" && i < |Pages| - 1 then Some(Pages[i + 1])
    else if key == "ArrowLeft" && i > 0 then Some(Pages[i - 1])
    else None
  }

  /** The page after `page`, written out page by page; an unlisted page is followed by the first. */
  function NextPage(page: string): Option<string>
  {
    if page == "index.html" then Some("silence.html")
    else if page == "silence.html" then Some("emptiness.html")
    else if page == "emptiness.html" then Some("stillness.html")
    else if page == "stillness.html" then Some("end.html")
    else if page == "end.html" then None
    else Some("index.html")
  }

  /** The page before `page`, written out page by page; the first and unlisted pages have none. */
  function PreviousPage(page: string): Option<string>
  {
    if page == "silence.html" then Some("index.html")
    else if page == "emptiness.html" then Some("silence.html")
    else if page == "stillness.html" then Some("emptiness.html")
    else if page == "end.html" then Some("stillness.html")
    else None
  }

  /** From the i-th listed page, each arrow agrees with its page-by-page table. */
  lemma NeighbourFollowsTables(i: nat)
    requires i < |Pages|
    ensures Neighbour(i, "ArrowRight") == NextPage(Pages[i])
    ensures Neighbour(i, "ArrowLeft") == PreviousPage(Pages[i])
  {
    if i == 0 {
      assert Pages[i] == "index.html" && Pages[i + 1] == "silence.html";
    } else if i == 1 {
      assert Pages[i] == "silence.html" && Pages[i - 1] == "index.html" && Pages[i + 1] == "emptiness.html";
    } else if i == 2 {
      assert Pages[i] == "emptiness.html" && Pages[i - 1] == "silence.html" && Pages[i + 1] == "stillness.html";
      assert Pages[i] != "index.html" && Pages[i] != "silence.html";
    } else if i == 3 {
      assert Pages[i] == "stillness.html" && Pages[i - 1] == "emptiness.html" && Pages[i + 1] == "end.html";
      assert Pages[i] != "index.html" && Pages[i] != "silence.html" && Pages[i] != "emptiness.html";
    } else {
      assert Pages[i] == "end.html" && Pages[i - 1] == "stillness.html";
      assert Pages[i] != "index.html" && Pages[i] != "silence.html";
      assert Pages[i] != "emptiness.html" && Pages[i] != "stillness.html";
    }
  }

  /** An unlisted page has the first page after it and none before it, in the tables too. */
  lemma UnlistedFollowsTables(page: string)
    requires page !in Pages
    ensures NextPage(page) == Some("index.html") && PreviousPage(page) == None
  {
    assert Pages[0] == "index.html" && Pages[1] == "silence.html" && Pages[2] == "emptiness.html";
    assert Pages[3] == "stillness.html" && Pages[4] == "end.html";
  }

  /** The arrows follow the page-by-page tables; every other key stays put. */
  lemma TargetFollowsTables(path: string, key: string)
    ensures Target(path, key) == (if key == "ArrowRight" then NextPage(LastSegment(path))
                                  else if key == "ArrowLeft" then PreviousPage(LastSegment(path))
                                  else None)
  {
    var page := LastSegment(path);
    var i := IndexOf(Pages, page);
    assert Target(path, key) == Neighbour(i, key);
    if i == -1 {
      UnlistedFollowsTables(page);
    } else {
      NeighbourFollowsTables(i);
    }
  }

  /** Page i moves to page i+1 on the right arrow and to page i-1 on the left one, within the list. */
  lemma ArrowsStepThroughPages(path: string, i: nat)
    requires i < |Pages| && LastSegment(path) == Pages[i]
    ensures Target(path, "ArrowRight") == if i + 1 < |Pages| then Some(Pages[i + 1]) else None
    ensures Target(path, "ArrowLeft") == if i > 0 then Some(Pages[i - 1]) else None
  {
    PagesDistinct();
    IndexOfDistinct(Pages, i);
    assert "ArrowLeft" != "ArrowRight";
  }

  /** In a list without repeats, the lookup of the i-th entry gives i. */
  lemma IndexOfDistinct<T>(xs: seq<T>, i: nat)
    requires i < |xs| && forall a, b :: 0 <= a < b < |xs| ==> xs[a] != xs[b]
    ensures IndexOf(xs, xs[i]) == i
  {
  }

  lemma PagesDistinct()
    ensures forall a, b :: 0 <= a < b < |Pages| ==> Pages[a] != Pages[b]
  {
  }

  /** A page outside the list goes to the first page on the right arrow and nowhere on the left one. */
  lemma UnlistedPageGoesHome(path: string)
    requires LastSegment(path) !in Pages
    ensures Target(path, "ArrowRight") == Some("index.html")
    ensures Target(path, "ArrowLeft") == None
  {
  }

  /** A path ending in '/' names the empty page, which is not listed. */
  lemma TrailingSlashIsUnlisted(path: string)
    requires |path| > 0 && path[|path| - 1] == '/'
    ensures LastSegment(path) == "" && "" !in Pages
    ensures Target(path, "ArrowRight") == Some("index.html")
  {
  }

  /** The page name of a path is the name that was appended after its last '/'. */
  lemma {:induction false} SegmentOfJoin(dir: string, name: string)
    requires '/' !in name
    ensures LastSegment(dir + "/" + name) == name
    decreases |name|
  {
    var path := dir + "/" + name;
    if name == [] {
      assert path[|path| - 1] == '/';
    } else {
      var init := name[..|name| - 1];
      assert path[..|path| - 1] == dir + "/" + init;
      assert '/' !in init by {
        forall j | 0 <= j < |init| ensures init[j] != '/' {
          assert init[j] == name[j];
        }
      }
      SegmentOfJoin(dir, init);
      assert name == init + [name[|name| - 1]];
    }
  }

  /** Stepping right and then left, from any page in the same directory, comes back to it. */
  lemma RightThenLeftReturns(dir: string, i: nat)
    requires i + 1 < |Pages|
    ensures Target(dir + "/" + Pages[i], "ArrowRight") == Some(Pages[i + 1])
    ensures Target(dir + "/" + Pages[i + 1], "ArrowLeft") == Some(Pages[i])
  {
    assert '/' !in Pages[i] && '/' !in Pages[i + 1] by {
      assert i == 0 || i == 1 || i == 2 || i == 3;
    }
    SegmentOfJoin(dir, Pages[i]);
    SegmentOfJoin(dir, Pages[i + 1]);
    ArrowsStepThroughPages(dir + "/" + Pages[i], i);
    ArrowsStepThroughPages(dir + "/" + Pages[i + 1], i + 1);
  }
}

=== FILE: options.dfy ===
/** The optional value used wherever the source yields `null`, `undefined` or "nothing". */
module Options {

  datatype Option<+T> = None | Some(value: T)
}

=== FILE: rain.dfy ===
/**
 * The binary rain: every tick creates one falling digit, "1" or "0" by a
 * coin flip, and appends it to a buffer; once the buffer holds more than
 * 100 digits the oldest is removed. The coin flips are an input; the
 * digits' random styling is not modelled.
 */
module BinaryRain {
  const Capacity: nat := 100

  /** A created digit: its creation number and its text. */
  datatype Digit = Digit(serial: nat, text: string)

  /** The text of a digit, from the coin flip `high` (the random draw exceeding one half). */
  function DigitText(high: bool): (t: string)
    ensures t == "0" || t == "1"
    ensures t == "1" <==> high
  {
    if high then "1" else "0"
  }

  /** One tick: the new digit goes to the back; the front one is dropped when over capacity. */
  function Tick(buffer: seq<Digit>, d: Digit): (r: seq<Digit>)
    ensures |buffer| <= Capacity ==> |r| == if |buffer| < Capacity then |buffer| + 1 else Capacity
    ensures 0 < |r| && r[|r| - 1] == d
    ensures |r| <= |buffer| + 1 && r == (buffer + [d])[|buffer| + 1 - |r|..]
  {
    var pushed := buffer + [d];
    if |pushed| > Capacity then pushed[1..] else pushed
  }

  /** Every digit created over the ticks, in creation order. */
  function Emitted(highs: seq<bool>): (r: seq<Digit>)
    ensures |r| == |highs|
    ensures forall i :: 0 <= i < |r| ==> r[i].serial == i && (r[i].text == "1" <==> highs[i])
  {
    seq(|highs|, i requires 0 <= i < |highs| => Digit(i, DigitText(highs[i])))
  }

  /** The buffer after one tick per coin flip, starting empty. */
  function Rain(highs: seq<bool>): seq<Digit>
    decreases |highs|
  {
    if highs == [] then []
    else
      var n := |highs| - 1;
      Tick(Rain(highs[..n]), Digit(n, DigitText(highs[n])))
  }

  function Min(a: nat, b: nat): nat
  {
    if a < b then a else b
  }

  /** Appending the newest digit to the newest `keep` digits before it gives the newest keep+1. */
  lemma AppendNewest(highs: seq<bool>, keep: nat)
    requires highs != [] && keep <= |highs| - 1
    ensures var n := |highs| - 1;
      Emitted(highs[..n])[n - keep..] + [Digit(n, DigitText(highs[n]))] == Emitted(highs)[n - keep..]
  {
  }

  /**
   * After n ticks the buffer holds min(n, 100) digits: exactly the most
   * recently created ones, oldest first.
   */
  lemma {:induction false} RainKeepsNewest(highs: seq<bool>)
    ensures |Rain(highs)| == Min(|highs|, Capacity)
    ensures Rain(highs) == Emitted(highs)[|highs| - Min(|highs|, Capacity)..]
    decreases |highs|
  {
    if highs != [] {
      var n := |highs| - 1;
      var prefix := highs[..n];
      RainKeepsNewest(prefix);
      var keep := Min(n, Capacity);
      var pushed := Rain(prefix) + [Digit(n, DigitText(highs[n]))];
      AppendNewest(highs, keep);
      assert pushed == Emitted(highs)[n - keep..];
      if keep == Capacity {
        assert Rain(highs) == pushed[1..];
      } else {
        assert Rain(highs) == pushed;
      }
    }
  }

  /** The buffer never holds more than 100 digits, and each reads "0" or "1". */
  lemma RainBounded(highs: seq<bool>)
    ensures |Rain(highs)| <= Capacity
    ensures forall i :: 0 <= i < |Rain(highs)| ==> Rain(highs)[i].text in {"0", "1"}
  {
    RainKeepsNewest(highs);
  }
}

=== FILE: shuffle.dfy ===
/**
 * The shuffle: 20 uncounted move requests, one every 150 ms, then a final
 * step that clears the counter and marks the cube unsolved. A turn's
 * animation lasts 400 ms, and a request arriving while a turn is in flight is
 * dropped by the move guard, so many of the 20 requests never take effect.
 *
 * The random choice of each request is an input (`picks`, indexes into the
 * shuffle's move list). Time is counted in milliseconds from the shuffle's
 * start: request k happens at k·150 ms, the completion step at 20·150 ms, and
 * a turn started by request k at time t settles at t + 400 + lags[k], where
 * `lags` (an input, one entry per request) says how late the first animation
 * frame after that turn's 400 ms mark comes; each turn's lag is its own.
 */
module Shuffle {
  import opened Moves
  import opened Cubies
  import opened Detector
  import opened CubeGame

  const ShuffleCount: nat := 20
  const ShuffleInterval: nat := 150
  const TurnDuration: nat := 400

  /** Each pick indexes the twelve-entry move list. */
  predicate ValidPicks(picks: seq<nat>)
  {
    |picks| == ShuffleCount && forall i :: 0 <= i < |picks| ==> picks[i] < |MoveIds|
  }

  /** One lag per request: how late the first animation frame after the 400 ms of the turn it starts comes. */
  predicate ValidLags(lags: seq<nat>)
  {
    |lags| == ShuffleCount
  }

  /** Every turn's first late frame comes between `lo` and `hi` ms late. */
  predicate LagsWithin(lags: seq<nat>, lo: int, hi: int)
  {
    forall i :: 0 <= i < |lags| ==> lo <= lags[i] <= hi
  }

  /** The game, and when the turn in flight (if any) settles. */
  datatype Clocked = Clocked(game: GameState, settleAt: int)

  /** The turn in flight settles if its time has come by `now`. */
  function SettleBy(c: Clocked, now: int): (r: Clocked)
    ensures IsAnimating(r.game) ==> IsAnimating(c.game) && r == c && now < c.settleAt
    ensures !IsAnimating(c.game) || now < c.settleAt ==> r == c
    ensures IsAnimating(c.game) && c.settleAt <= now ==> r.game == FinishRotation(c.game) && r.settleAt == c.settleAt
    ensures r.game.moves == c.game.moves && r.game.isActive == c.game.isActive
    ensures WellFormed(c.game.cubies) ==> WellFormed(r.game.cubies)
  {
    if IsAnimating(c.game) && c.settleAt <= now then c.(game := FinishRotation(c.game)) else c
  }

  /**
   * One shuffle request at time `now`: earlier turns that are due settle,
   * then an uncounted move request is made; a turn it starts settles
   * TurnDuration + lag later.
   */
  function Attempt(c: Clocked, id: string, now: int, lag: nat): (r: Clocked)
    ensures r.game.moves == c.game.moves && r.game.isActive == c.game.isActive
    ensures WellFormed(c.game.cubies) ==> WellFormed(r.game.cubies)
  {
    var settled := SettleBy(c, now);
    var started := StartMove(settled.game, id, false);
    if IsAnimating(started) && !IsAnimating(settled.game) then Clocked(started, now + TurnDuration + lag)
    else settled.(game := started)
  }

  /** Requests k, k+1, … of the shuffle, then its completion step. */
  function ShuffleFrom(c: Clocked, picks: seq<nat>, k: nat, lags: seq<nat>): (r: Clocked)
    requires ValidPicks(picks) && ValidLags(lags) && k <= ShuffleCount
    ensures r.game.moves == 0 && !r.game.isSolved && r.game.isActive == c.game.isActive
    ensures WellFormed(c.game.cubies) ==> WellFormed(r.game.cubies)
    decreases ShuffleCount - k
  {
    if k == ShuffleCount then
      var settled := SettleBy(c, k * ShuffleInterval);
      settled.(game := settled.game.(moves := 0, isSolved := false))
    else
      ShuffleFrom(Attempt(c, MoveIds[picks[k]], k * ShuffleInterval, lags[k]), picks, k + 1, lags)
  }

  /** The shuffle: ignored while a turn is in flight; otherwise its 20 requests and completion. */
  function Shuffle(g: GameState, picks: seq<nat>, lags: seq<nat>): (r: Clocked)
    requires ValidPicks(picks) && ValidLags(lags)
    ensures IsAnimating(g) ==> r.game == g
    ensures !IsAnimating(g) ==> r.game.moves == 0 && !r.game.isSolved && r.game.isActive == g.isActive
    ensures WellFormed(g.cubies) ==> WellFormed(r.game.cubies)
  {
    if IsAnimating(g) then Clocked(g, 0) else ShuffleFrom(Clocked(g, 0), picks, 0, lags)
  }

  /** The game once the turn still in flight, if any, has settled. */
  function Settled(c: Clocked): (g: GameState)
    ensures !IsAnimating(g) && g.moves == c.game.moves
    ensures IsAnimating(c.game) ==> FlagAgrees(g)
  {
    if IsAnimating(c.game) then FinishRotation(c.game) else c.game
  }

  /** The cubies once the turn in flight, if any, has been committed. */
  function SettledCubies(c: Clocked): seq<Cubie>
  {
    if IsAnimating(c.game) then TurnCubies(c.game.cubies, c.game.phase.spec) else c.game.cubies
  }

  /** The picks of requests k, k+3, k+6, … */
  function EveryThird(picks: seq<nat>, k: nat): (r: seq<nat>)
    requires ValidPicks(picks)
    ensures forall i :: 0 <= i < |r| ==> r[i] < |MoveIds|
    decreases |picks| - k
  {
    if k >= |picks| then [] else [picks[k]] + EveryThird(picks, k + 3)
  }

  /** The cubies after the listed moves, in order. */
  function TurnAll(cs: seq<Cubie>, picks: seq<nat>): seq<Cubie>
    requires forall i :: 0 <= i < |picks| ==> picks[i] < |MoveIds|
    decreases |picks|
  {
    if picks == [] then cs
    else
      var spec := Lookup(MoveIds[picks[0]]).value;
      TurnAll(TurnCubies(cs, spec), picks[1..])
  }

  /** A request made when no turn is in flight any more starts one. */
  lemma AcceptedAttempt(c: Clocked, id: string, now: int, lag: nat)
    requires id in MoveIds && c.game.isActive
    requires IsAnimating(c.game) ==> c.settleAt <= now
    ensures var r := Attempt(c, id, now, lag);
      && r.game.isActive && r.game.phase == Turning(Lookup(id).value)
      && r.settleAt == now + TurnDuration + lag && r.game.cubies == SettledCubies(c)
  {
    var settled := SettleBy(c, now);
    assert !IsAnimating(settled.game) && settled.game.cubies == SettledCubies(c);
  }

  /** A request made while a turn is still in flight changes nothing. */
  lemma DroppedAttempt(c: Clocked, id: string, now: int, lag: nat)
    requires IsAnimating(c.game) && now < c.settleAt
    ensures Attempt(c, id, now, lag) == c
  {
  }

  lemma ShuffleFromStep(c: Clocked, picks: seq<nat>, k: nat, lags: seq<nat>)
    requires ValidPicks(picks) && ValidLags(lags) && k < ShuffleCount
    ensures ShuffleFrom(c, picks, k, lags)
         == ShuffleFrom(Attempt(c, MoveIds[picks[k]], k * ShuffleInterval, lags[k]), picks, k + 1, lags)
  {
  }

  /** When the shuffle completes before the turn in flight settles, that turn stays in flight. */
  lemma CompletionInFlight(c: Clocked, picks: seq<nat>, lags: seq<nat>)
    requires ValidPicks(picks) && ValidLags(lags)
    requires IsAnimating(c.game) && ShuffleCount * ShuffleInterval < c.settleAt
    ensures var r := ShuffleFrom(c, picks, ShuffleCount, lags);
      IsAnimating(r.game) && SettledCubies(r) == SettledCubies(c)
  {
  }

  lemma TurnAllCons(cs: seq<Cubie>, p: nat, rest: seq<nat>)
    requires p < |MoveIds| && forall i :: 0 <= i < |rest| ==> rest[i] < |MoveIds|
    ensures TurnAll(cs, [p] + rest) == TurnAll(TurnCubies(cs, Lookup(MoveIds[p]).value), rest)
  {
    assert ([p] + rest)[1..] == rest;
  }

  lemma EveryThirdCons(picks: seq<nat>, k: nat)
    requires ValidPicks(picks) && k < |picks|
    ensures EveryThird(picks, k) == [picks[k]] + EveryThird(picks, k + 3)
  {
  }

  /**
   * A request k made when no turn is in flight any more starts one; the
   * requests k+1 … m-1 come before it settles and are dropped.
   */
  lemma AcceptThenDrop(c: Clocked, picks: seq<nat>, k: nat, m: nat, lags: seq<nat>)
    requires ValidPicks(picks) && ValidLags(lags) && k < m <= ShuffleCount && c.game.isActive
    requires IsAnimating(c.game) ==> c.settleAt <= k * ShuffleInterval
    requires (m - 1) * ShuffleInterval < k * ShuffleInterval + TurnDuration + lags[k]
    ensures var c1 := Attempt(c, MoveIds[picks[k]], k * ShuffleInterval, lags[k]);
      && ShuffleFrom(c, picks, k, lags) == ShuffleFrom(c1, picks, m, lags)
      && c1.game.isActive && IsAnimating(c1.game) && c1.settleAt == k * ShuffleInterval + TurnDuration + lags[k]
      && SettledCubies(c1) == TurnCubies(SettledCubies(c), Lookup(MoveIds[picks[k]]).value)
  {
    AcceptedTurn(c, picks, k, lags);
    var c1 := Attempt(c, MoveIds[picks[k]], k * ShuffleInterval, lags[k]);
    ShuffleFromStep(c, picks, k, lags);
    DroppedRun(c1, picks, k + 1, m, lags);
  }

  /** When the turn it starts is at most 50 ms late, a request that starts a turn is followed by two dropped ones. */
  lemma AcceptThenDropTwo(c: Clocked, picks: seq<nat>, k: nat, lags: seq<nat>)
    requires ValidPicks(picks) && ValidLags(lags) && k + 3 <= ShuffleCount && lags[k] <= 50 && c.game.isActive
    requires IsAnimating(c.game) ==> c.settleAt <= k * ShuffleInterval
    ensures var c1 := Attempt(c, MoveIds[picks[k]], k * ShuffleInterval, lags[k]);
      && ShuffleFrom(c, picks, k, lags) == ShuffleFrom(c1, picks, k + 3, lags)
      && c1.game.isActive && IsAnimating(c1.game) && c1.settleAt <= (k + 3) * ShuffleInterval
      && SettledCubies(c1) == TurnCubies(SettledCubies(c), Lookup(MoveIds[picks[k]]).value)
  {
    AcceptThenDrop(c, picks, k, k + 3, lags);
  }

  /** When its turn is at most 50 ms late, request 18 starts a turn that is still in flight at completion. */
  lemma AcceptThenComplete(c: Clocked, picks: seq<nat>, lags: seq<nat>)
    requires ValidPicks(picks) && ValidLags(lags) && lags[18] <= 50 && c.game.isActive
    requires IsAnimating(c.game) ==> c.settleAt <= 18 * ShuffleInterval
    ensures var r := ShuffleFrom(c, picks, 18, lags);
      && IsAnimating(r.game)
      && SettledCubies(r) == TurnCubies(SettledCubies(c), Lookup(MoveIds[picks[18]]).value)
  {
    AcceptThenDrop(c, picks, 18, 20, lags);
    CompletionInFlight(Attempt(c, MoveIds[picks[18]], 18 * ShuffleInterval, lags[18]), picks, lags);
  }

  /** Turning by pick k and then by the picks k+3, k+6, … is turning by the picks k, k+3, … */
  lemma TurnAllStep(sc: seq<Cubie>, picks: seq<nat>, k: nat)
    requires ValidPicks(picks) && k < |picks|
    ensures TurnAll(TurnCubies(sc, Lookup(MoveIds[picks[k]]).value), EveryThird(picks, k + 3))
         == TurnAll(sc, EveryThird(picks, k))
  {
    EveryThirdCons(picks, k);
    TurnAllCons(sc, picks[k], EveryThird(picks, k + 3));
  }

  /** From request 3j on, the requests 3j, 3j+3, … take effect and the last is in flight at completion. */
  lemma {:induction false} ShuffleFromEveryThird(c: Clocked, picks: seq<nat>, j: nat, lags: seq<nat>)
    requires ValidPicks(picks) && ValidLags(lags) && LagsWithin(lags, 0, 50) && j <= 6
    requires c.game.isActive
    requires j == 0 ==> !IsAnimating(c.game)
    requires j > 0 ==> IsAnimating(c.game) && c.settleAt <= 3 * j * ShuffleInterval
    ensures var r := ShuffleFrom(c, picks, 3 * j, lags);
      IsAnimating(r.game) && SettledCubies(r) == TurnAll(SettledCubies(c), EveryThird(picks, 3 * j))
    decreases 6 - j, 1
  {
    if j == 6 {
      EveryThirdLast(c, picks, lags);
    } else {
      EveryThirdNext(c, picks, j, lags);
    }
  }

  /** The last accepted request, 18, is still in flight at completion. */
  lemma EveryThirdLast(c: Clocked, picks: seq<nat>, lags: seq<nat>)
    requires ValidPicks(picks) && ValidLags(lags) && LagsWithin(lags, 0, 50) && c.game.isActive
    requires IsAnimating(c.game) && c.settleAt <= 18 * ShuffleInterval
    ensures var r := ShuffleFrom(c, picks, 18, lags);
      IsAnimating(r.game) && SettledCubies(r) == TurnAll(SettledCubies(c), EveryThird(picks, 18))
  {
    var sc := SettledCubies(c);
    TurnAllStep(sc, picks, 18);
    assert EveryThird(picks, 21) == [];
    AcceptThenComplete(c, picks, lags);
  }

  /** Request 3j is accepted, the next two are dropped, and the rest follows from request 3j+3. */
  lemma {:induction false} EveryThirdNext(c: Clocked, picks: seq<nat>, j: nat, lags: seq<nat>)
    requires ValidPicks(picks) && ValidLags(lags) && LagsWithin(lags, 0, 50) && j < 6
    requires c.game.isActive
    requires j == 0 ==> !IsAnimating(c.game)
    requires j > 0 ==> IsAnimating(c.game) && c.settleAt <= 3 * j * ShuffleInterval
    ensures var r := ShuffleFrom(c, picks, 3 * j, lags);
      IsAnimating(r.game) && SettledCubies(r) == TurnAll(SettledCubies(c), EveryThird(picks, 3 * j))
    decreases 6 - j, 0
  {
    var k := 3 * j;
    var sc := SettledCubies(c);
    var spec := Lookup(MoveIds[picks[k]]).value;
    TurnAllStep(sc, picks, k);
    AcceptThenDropTwo(c, picks, k, lags);
    var c1 := Attempt(c, MoveIds[picks[k]], k * ShuffleInterval, lags[k]);
    assert 3 * (j + 1) == k + 3;
    ShuffleFromEveryThird(c1, picks, j + 1, lags);
    var r1 := ShuffleFrom(c1, picks, k + 3, lags);
    assert SettledCubies(r1) == TurnAll(TurnCubies(sc, spec), EveryThird(picks, k + 3));
    assert ShuffleFrom(c, picks, k, lags) == r1;
  }

  lemma EveryThirdFromStart(picks: seq<nat>)
    requires ValidPicks(picks)
    ensures EveryThird(picks, 0) == [picks[0], picks[3], picks[6], picks[9], picks[12], picks[15], picks[18]]
  {
    assert EveryThird(picks, 18) == [picks[18]] + EveryThird(picks, 21) == [picks[18]];
    assert EveryThird(picks, 15) == [picks[15], picks[18]];
    assert EveryThird(picks, 12) == [picks[12], picks[15], picks[18]];
    assert EveryThird(picks, 9) == [picks[9], picks[12], picks[15], picks[18]];
    assert EveryThird(picks, 6) == [picks[6], picks[9], picks[12], picks[15], picks[18]];
    assert EveryThird(picks, 3) == [picks[3], picks[6], picks[9], picks[12], picks[15], picks[18]];
  }

  /**
   * When every turn's first late frame comes at most 50 ms late (each turn
   * by its own amount), only requests 0, 3, 6, …, 18 of
   * the shuffle take effect: each turn is still in flight at the next two
   * requests, which are dropped. The last turn is still in flight when the
   * shuffle completes; once it settles, the cubies are the seven accepted
   * moves applied in order, the counter is 0 and the detector is re-run.
   */
  lemma ShuffleKeepsEveryThirdPick(g: GameState, picks: seq<nat>, lags: seq<nat>)
    requires ValidPicks(picks) && ValidLags(lags) && LagsWithin(lags, 0, 50)
    requires !IsAnimating(g) && g.isActive
    ensures var r := Shuffle(g, picks, lags);
      && IsAnimating(r.game) && r.game.moves == 0 && !r.game.isSolved
      && Settled(r).cubies == TurnAll(g.cubies, EveryThird(picks, 0))
      && Settled(r).moves == 0 && FlagAgrees(Settled(r))
    ensures EveryThird(picks, 0) == [picks[0], picks[3], picks[6], picks[9], picks[12], picks[15], picks[18]]
  {
    ShuffleFromEveryThird(Clocked(g, 0), picks, 0, lags);
    EveryThirdFromStart(picks);
  }

  /** Requests k … m-1 all come while the turn in flight has yet to settle, so none has an effect. */
  lemma {:induction false} DroppedRun(c: Clocked, picks: seq<nat>, k: nat, m: nat, lags: seq<nat>)
    requires ValidPicks(picks) && ValidLags(lags) && k <= m <= ShuffleCount
    requires IsAnimating(c.game) && (k < m ==> (m - 1) * ShuffleInterval < c.settleAt)
    ensures ShuffleFrom(c, picks, k, lags) == ShuffleFrom(c, picks, m, lags)
    decreases m - k
  {
    if k < m {
      ShuffleFromStep(c, picks, k, lags);
      DroppedAttempt(c, MoveIds[picks[k]], k * ShuffleInterval, lags[k]);
      DroppedRun(c, picks, k + 1, m, lags);
    }
  }

  /** The cubies after a request at `now` that starts a turn, once that turn settles. */
  lemma AcceptedTurn(c: Clocked, picks: seq<nat>, k: nat, lags: seq<nat>)
    requires ValidPicks(picks) && ValidLags(lags) && k < ShuffleCount && c.game.isActive
    requires IsAnimating(c.game) ==> c.settleAt <= k * ShuffleInterval
    ensures var r := Attempt(c, MoveIds[picks[k]], k * ShuffleInterval, lags[k]);
      && r.game.isActive && IsAnimating(r.game)
      && r.settleAt == k * ShuffleInterval + TurnDuration + lags[k]
      && SettledCubies(r) == TurnCubies(SettledCubies(c), Lookup(MoveIds[picks[k]]).value)
  {
    AcceptedAttempt(c, MoveIds[picks[k]], k * ShuffleInterval, lags[k]);
  }

  /**
   * The completion step clears the solved flag whatever the cubies show.
   * When every turn's first late frame comes more than 200 and at most
   * 350 ms late (each turn by its own amount), requests 0, 5, 10 and 15
   * are the ones that take effect and the last of them settles just before
   * the completion step; if those four requests pick the same move, the
   * cubies end where they started, with no turn in flight, yet the flag
   * says unsolved. Started from the set-up cube, the detector would report
   * the cube solved while the game reports it unsolved.
   */
  lemma ShuffleCanHideSolvedCube(g: GameState, picks: seq<nat>, lags: seq<nat>)
    requires ValidPicks(picks) && ValidLags(lags) && LagsWithin(lags, 201, 350)
    requires !IsAnimating(g) && g.isActive
    requires picks[0] == picks[5] == picks[10] == picks[15]
    ensures var r := Shuffle(g, picks, lags);
      && !IsAnimating(r.game) && r.game.cubies == g.cubies
      && r.game.moves == 0 && !r.game.isSolved
    ensures g == Fresh() ==> IsSolved(Shuffle(g, picks, lags).game.cubies)
  {
    var spec := Lookup(MoveIds[picks[0]]).value;
    var c0 := Clocked(g, 0);
    AcceptThenDrop(c0, picks, 0, 5, lags);
    var c1 := Attempt(c0, MoveIds[picks[0]], 0 * ShuffleInterval, lags[0]);
    AcceptThenDrop(c1, picks, 5, 10, lags);
    var c2 := Attempt(c1, MoveIds[picks[5]], 5 * ShuffleInterval, lags[5]);
    AcceptThenDrop(c2, picks, 10, 15, lags);
    var c3 := Attempt(c2, MoveIds[picks[10]], 10 * ShuffleInterval, lags[10]);
    AcceptThenDrop(c3, picks, 15, 20, lags);
    var c4 := Attempt(c3, MoveIds[picks[15]], 15 * ShuffleInterval, lags[15]);
    CompletionSettles(c4, picks, lags);
    assert SettledCubies(c4) == TurnCubies(TurnCubies(TurnCubies(TurnCubies(g.cubies, spec), spec), spec), spec);
    TurnFourTimes(g.cubies, spec);
    if g == Fresh() {
      FreshIsSolved();
    }
  }

  /** A turn due to settle by the completion step settles there. */
  lemma CompletionSettles(c: Clocked, picks: seq<nat>, lags: seq<nat>)
    requires ValidPicks(picks) && ValidLags(lags) && IsAnimating(c.game) && c.settleAt <= ShuffleCount * ShuffleInterval
    ensures var r := ShuffleFrom(c, picks, ShuffleCount, lags);
      !IsAnimating(r.game) && r.game.cubies == SettledCubies(c)
  {
  }
}
